=== FILE: README.md ===
# Foodgram backend core in Dafny

This project models the core of the Foodgram recipe service's Django REST backend.
Users publish recipes made of tagged ingredient amounts. They favourite recipes, put
recipes in a shopping cart, download the cart as a text shopping list, and subscribe to
authors. The ORM is replaced by one immutable value, `Store.Db`, which holds every table.
Each request handler is a pure function from a database and a request to a new database
and an HTTP status.

The modules follow the backend's files:

- `UserModels` and `RecipeModels` (`user/models.py`, `recipes/models.py`): rows, field
  validators, unique and check constraints, default orderings.
- `Store`: the database value and `Valid`, the conjunction of every schema constraint and
  foreign key.
- `Permissions` (`api/permissions.py`) and `Filters` (`api/filters.py`).
- `Serializers` (`api/serializers.py`, `RecipeCreateSerializer`): field validation and
  `create_ingredients`.
- `RecipeSaving`: `create` and `update` as sequences of ORM steps on the database value.
- `ShoppingList` (`download_shopping_cart` in `api/views.py`, and `api/utils.py`): both
  shopping-list aggregations.
- `Views` (`api/views.py`): `post_delete`, `favorite`, `shopping_cart`, `subscribe`,
  `download_shopping_cart`, and recipe create / partial update as requests.
- `Common`, `Text`, `Ordering`, `Http`: supporting definitions.

Framework behaviour the handlers rely on is modelled explicitly:

- Checks run in DRF's order: authentication and view permission (401), the route's
  allowed methods (405), the object lookup (404), the object permission (403), then
  serializer validation (400).
- Validation reports the set of all failing fields, not just the first one.
- A partial update skips omitted fields.
- `CharField` trims surrounding whitespace and rejects a blank value. Its validators then
  refuse a NUL character, before the field's own `validate_<field>` hook runs.
- `bulk_create` inserts all rows or none.
- A `PositiveIntegerField` column holds 0 to `Db.intMax`, the database engine's range
  (`Store.SafeIntegerMax`, 2147483647, in the examples). Writing a larger value makes
  the INSERT or UPDATE fail with a server error.
- Nothing wraps `create` or `update` in a transaction. A failure in a later step
  therefore leaves the earlier steps stored.

Where the code and its documentation disagree, the model follows the code:

- The API checks `amount` and `cooking_time` only against a minimum of 1. The serializer
  declares both fields itself, so the model fields' `MaxValueValidator`s never run on
  input. `Serializers.CookingTimeHasNoUpperBound` and `Serializers.AmountHasNoUpperBound`
  record this. Only the column range stops a too large value, with a server error.
- `Recipe.tags` and `Recipe.ingredients` are many-to-many fields without `through=`, so
  Django keeps them in auto tables. `Db.recipeTags` and `Db.recipeIngredients` are those
  tables, distinct from `TagRecipe` and `IngredientRecipe`.

## Model

| member | source | states |
|---|---|---|
| Views.PostDelete | backend/api/views.py:57-83 | POST of a present pair and DELETE of an absent pair answer 400 and change nothing. POST of an absent pair adds exactly that pair with 200, not 201. DELETE of a present pair removes exactly that pair with 200. No other pair changes, and uniqueness is kept. |
| Views.RelationRequest | backend/api/views.py:85-95 | Anonymous requests answer 401 and methods other than POST and DELETE answer 405. A success needs an existing recipe. Otherwise the answer is `post_delete` on the signed-in user's pair. |
| Views.Favorite | backend/api/views.py:85-89 | Only the Favorite table can change, and any non-200 answer leaves the whole database unchanged. |
| Views.ShoppingCart | backend/api/views.py:91-95 | Only the ShoppingCart table can change, so a cart toggle never alters favourites. Any non-200 answer leaves the database unchanged. |
| Views.PostThenDeleteRestores | backend/api/views.py:62-79 | Adding an absent pair and then removing it gives back the original table, both steps answering 200. |
| Views.RelationRequestKeepsTable | backend/recipes/models.py:214-241 | A toggle by a stored user keeps the table's unique (user, recipe) constraint and both foreign keys. |
| Views.FavoriteKeepsValid | backend/recipes/models.py:214-226 | `favorite` preserves every schema constraint of the database. |
| Views.ShoppingCartKeepsValid | backend/recipes/models.py:229-241 | `shopping_cart` preserves every schema constraint of the database. |
| Views.Subscribe | backend/api/views.py:159-193 | 401 comes first, then 405, then 404 for an unknown author. Following oneself answers 400 for both methods, before any existence test. POST answers 201 iff the pair was absent, and then appends exactly that pair. DELETE answers 204 iff the pair was present, and then removes exactly that pair. Every other answer changes nothing. |
| Views.SubscribeKeepsValid | backend/user/models.py:75-83 | Subscribing preserves every schema constraint, including the unique (user, author) pair and `user != author`. |
| Views.SubscribeThenUnsubscribeRestores | backend/api/views.py:175-193 | Following an author not yet followed, then unfollowing, answers 201 then 204 and restores the database. |
| Views.DownloadShoppingCart | backend/api/views.py:97-120 | Only a signed-in GET succeeds. Anonymous requests answer 401, and a signed-in request with another method answers 405. The text starts with the header and date lines. Every grouped cart line occurs after the header. |
| Views.ShoppingListContents | backend/api/views.py:101-116 | The list has one line per distinct (name, unit) among the ingredient rows of the carted recipes, and each line's quantity is that pair's total amount. With no line breaks in names, units and the date, the text has exactly 4 + (number of lines) line feeds. |
| Views.CreateRecipeRequest | backend/api/views.py:42-55 | Anonymous requests answer 401 and invalid bodies answer 400 iff some field is unacceptable. Both leave the database unchanged. A 201 stores the recipe under the requester. For a valid body on a consistent database it is 201 iff the cooking time fits its integer column and every ingredient id exists with an amount that fits its column. |
| Views.PartialUpdateRequest | backend/api/serializers.py:202-210 | The PATCH as the code runs it. 401, 404, 403 and 400 leave the database unchanged, and only the author or staff reach the update. Omitted tags or ingredients stay unchanged. Supplied ingredients are appended after the recipe's old IngredientRecipe rows. On a consistent database it is 200 iff every supplied id exists with an amount that fits its column, no supplied id is already among the recipe's rows, and the cooking time fits. Otherwise it is 500. |
| Views.PatchChecks | backend/api/views.py:42-51 | The checks before `update` run in order: 401 for anonymous users, 404 for an unknown recipe, 403 for someone neither author nor staff, then 400. They pass iff every one holds, and then yield the serializer's validated data. |
| Views.AcceptedUpdateAsWrittenIff | backend/api/serializers.py:202-210 | On a consistent database, the as-written update of an accepted body succeeds iff its ingredients exist, fit and are new to the recipe, and its cooking time fits. |
| Views.CorrectedPartialUpdateRequest | backend/api/serializers.py:202-210 | The same PATCH with the corrected ingredient step. It answers the same 401, 404, 403 and 400. Supplied ingredients become exactly the recipe's rows. On a consistent database it is 200 iff every supplied id exists with an amount that fits and the cooking time fits. |
| Views.CreateRecipeRequestKeepsValid | backend/api/serializers.py:193-200 | Creating a recipe preserves every schema constraint, whatever the answer. |
| Views.PartialUpdateRequestKeepsValid | backend/api/serializers.py:202-210 | The PATCH as written preserves every schema constraint, whatever the answer, including the 500 from a repeated ingredient. |
| Views.CorrectedPartialUpdateRequestKeepsValid | backend/api/serializers.py:202-210 | The corrected PATCH preserves every schema constraint, whatever the answer. |
| Views.RepeatedPostConflicts | backend/api/views.py:62-72 | A second identical POST answers 400 and leaves the table as the first POST left it. |
| Serializers.ValidateTags | backend/api/serializers.py:154-160 | An empty list is refused with the "at least one tag" error. Otherwise the list is accepted iff it has no repeated tag, and is then returned unchanged. |
| Serializers.RepeatedId | backend/api/serializers.py:166-171 | The loop over the ingredients finds a repeat iff some id is already in the seen set or two entries share an id. |
| Serializers.ValidateIngredients | backend/api/serializers.py:162-172 | An empty list is refused. A list is accepted iff it is non-empty, its ids are pairwise distinct (whatever the amounts) and every amount is at least 1, as the `amount` field's validator demands. |
| Serializers.ValidateName | backend/api/serializers.py:174-179 | A name is accepted iff some character is outside the punctuation set and some character is not a digit. |
| Serializers.NameExamples | backend/api/serializers.py:175-176 | The empty name, "123" and "?!-" are refused, while the mixed "12-3" and a Cyrillic name pass. |
| Serializers.CheckName | backend/api/serializers.py:143 | A name that trims to nothing is refused as blank. A name is accepted iff, once trimmed, it has a character outside the punctuation set and a character that is not a digit, and holds no NUL character. The accepted value is the trimmed input. |
| Serializers.SeparatorsOnlyNameBlank | backend/api/serializers.py:143 | A name made only of a space, the separator `\x1c` and a tab trims to nothing and is refused as blank. |
| Serializers.NullCharacterRefused | backend/api/serializers.py:143 | "ab\0" passes `validate_name` alone but the `name` field refuses it. |
| Serializers.CheckTags | backend/api/serializers.py:138-160 | An id that names no stored tag is refused. Otherwise the list is accepted iff it is non-empty and has no repeated tag, and is then returned unchanged. |
| Serializers.CheckText | backend/recipes/models.py:97-102 | A text is accepted iff, trimmed, it is non-empty, within the column's `max_length` and free of NUL characters. The accepted value is the trimmed text. |
| Serializers.CheckCookingTime | backend/api/serializers.py:145-147 | A cooking time is accepted iff it is at least 1, and is then returned unchanged. |
| Serializers.CookingTimeHasNoUpperBound | backend/api/serializers.py:145-147 | A cooking time of at least 1 that the model's MIN_VALUE..MAX_TIME validators would refuse is still acceptable and passes validation unchanged. |
| Serializers.AmountHasNoUpperBound | backend/api/serializers.py:92-95 | An amount of at least 1 that the model's MIN_VALUE..MAX_VALUE validators would refuse is still accepted unchanged by the ingredient list's validation. |
| Serializers.ValidateRecipe | backend/api/serializers.py:137-179 | The body is accepted iff every field is acceptable, and a refusal names exactly the unacceptable fields. Tags, ingredients, name, image and cooking time may be omitted only in a partial update. The nullable text may always be omitted or null. Accepted values pass through, with name and text trimmed, and a full create's result has every required field. |
| Serializers.ChecksMeaning | backend/api/serializers.py:138-147 | Each field's run of validators passes iff the field is acceptable by its declarative description. |
| Serializers.CreateIngredients | backend/api/serializers.py:181-191 | One IngredientRecipe row per input entry, in order, carrying that entry's id and amount and the given recipe. |
| Serializers.AsInputs | backend/api/serializers.py:181-191 | Reading rows back as inputs keeps their order, ids and amounts. |
| RecipeSaving.BulkCreate | backend/api/serializers.py:191 | The insert either appends every row or, when a foreign key or `unique_recipe_ingredient` would be violated, stores none. A successful insert preserves every schema constraint. |
| RecipeSaving.SetTags | backend/api/serializers.py:198 | The recipe's tags become exactly the given ids, and other recipes' tag pairs are untouched. |
| RecipeSaving.ClearIngredients | backend/api/serializers.py:208 | `clear()` empties only the recipe's pairs in the auto table of Recipe.ingredients. |
| RecipeSaving.RowsNotOf | backend/api/serializers.py:206-209 | Deleting a recipe's IngredientRecipe rows keeps exactly the other recipes' rows. |
| RecipeSaving.CreateRecipe | backend/api/serializers.py:193-200 | A cooking time out of its column's range answers 500 with nothing stored. Otherwise the recipe is stored under its author with the given name, cooking time and tags. The answer is then 201 with exactly the new rows, or 500 with no rows but the recipe and tags kept. |
| RecipeSaving.SaveRecipeAndTags | backend/api/serializers.py:196-198 | The first two steps store the recipe under its author with its name and cooking time, and give it exactly the given tags. They write no IngredientRecipe row. |
| RecipeSaving.CreateRecipeSucceedsIff | backend/api/serializers.py:193-200 | For an ingredient list with distinct ids and positive amounts, on a table that already meets `unique_recipe_ingredient`, `create` answers 201 iff the cooking time fits its column and every ingredient id names a stored ingredient with an amount that fits its column. |
| Views.AcceptedCreateSucceedsIff | backend/api/serializers.py:193-200 | On a consistent database, a body the serializer accepted is saved iff its cooking time fits and all its ingredient ids exist with amounts that fit. |
| RecipeSaving.CreateRecipeKeepsValid | backend/api/serializers.py:193-200 | Saving a new recipe preserves every schema constraint, on 201 and on 500 alike. |
| RecipeSaving.Retag | backend/api/serializers.py:203-205 | Omitted tags leave the tag pairs unchanged, while supplied tags replace the recipe's set entirely. Other recipes keep theirs. |
| RecipeSaving.ReplaceIngredientsAsWritten | backend/api/serializers.py:206-209 | As written, a successful ingredient step leaves the recipe's old rows in place, followed by the new ones. |
| RecipeSaving.ReplaceIngredients | backend/api/serializers.py:206-209 | Corrected, a successful ingredient step leaves exactly the new rows, and other recipes keep theirs. For a validated list it succeeds iff every ingredient id exists with an amount that fits its column. |
| RecipeSaving.UpdateRecipeAsWritten | backend/api/serializers.py:202-210 | As written, supplied tags replace, omitted fields stay unchanged, and supplied ingredients are added to the old rows. It succeeds iff the added rows can be inserted and a supplied cooking time fits its column. A failure leaves the recipe row itself unchanged. |
| RecipeSaving.AddedRowsInsertable | backend/api/serializers.py:206-209 | A validated list can be appended to the recipe's rows iff every id exists with an amount that fits and no id is already among the recipe's rows. |
| RecipeSaving.UpdateRecipeAsWrittenKeepsValid | backend/api/serializers.py:202-210 | The update as written preserves every schema constraint, on success and on a 500 alike. |
| RecipeSaving.SaveColumns | backend/api/serializers.py:210 | `super().update` succeeds iff a supplied cooking time fits its column. Then it saves the new name and touches only the recipe table; a failure changes nothing. |
| RecipeSaving.ApplyColumns | backend/api/serializers.py:210 | Writing the columns changes only the updated recipe's row. A supplied name or cooking time replaces the old value, an omitted one is kept, and the author and date never change. |
| RecipeSaving.UpdateRecipe | backend/api/serializers.py:202-210 | Corrected, omitted tags and ingredients stay unchanged and supplied ones replace the recipe's old ones exactly. No other recipe's tags or rows change. On a table meeting `unique_recipe_ingredient` it succeeds iff every supplied ingredient id exists with an amount that fits and a supplied cooking time fits, and a success saves the new name. |
| RecipeSaving.UpdateRecipeKeepsValid | backend/api/serializers.py:202-210 | The corrected update preserves every schema constraint. |
| RecipeSaving.UpdateAsWrittenKeepsOldRows | backend/api/serializers.py:206-209 | On a recipe holding ingredient 5, PATCH [(6, 1)] answers 200 but leaves rows for both 5 and 6. PATCH [(5, 3)] hits `unique_recipe_ingredient` and answers 500. |
| RecipeSaving.UpdateReplacesOldRows | backend/api/serializers.py:206-209 | With the corrected step, both requests answer 200 and leave exactly the new row. |
| ShoppingList.GroupByPair | backend/api/views.py:103-107 | The `values(name, unit).annotate(Sum)` grouping gives one line per distinct (name, unit) pair of the entries, with no pair twice. Each line's quantity is the sum of that pair's amounts. |
| ShoppingList.Render | backend/api/views.py:108-116 | The text starts with the "Список покупок:" and "Дата:" header lines, and with no lines it is only the header. |
| ShoppingList.RenderLineCount | backend/api/views.py:109-116 | The header contributes four line feeds and each line exactly one. |
| ShoppingList.RenderShowsEveryLine | backend/api/views.py:111-116 | Every line's text `- name (unit) : total` occurs in the attachment after the header. |
| ShoppingList.ProcessShoppingCartItems | backend/api/utils.py:4-17 | No items give an empty map. The keys are exactly the labels `name (unit)` of the ingredient rows of the items' recipes. Each key maps to the sum of the amounts of all rows, across all items, with that label. |
| ShoppingList.AddRecipeRows | backend/api/utils.py:8-16 | Folding one recipe's rows into the running map gives the label totals of all rows met so far, this recipe's included. |
| ShoppingList.LabelTotalsMeaning | backend/api/utils.py:6-16 | The label-keyed fold adds a key exactly for each label met, holding that label's total. |
| ShoppingList.RepeatedItemCountsTwice | backend/api/utils.py:6-8 | An item listed twice contributes its recipe's amounts twice. |
| ShoppingList.AggregationsAgreeWhenLabelsDistinct | backend/api/utils.py:9-16 | When distinct pairs render distinct labels, the two aggregations agree line for line. |
| ShoppingList.LabelKeyMergesDistinctPairs | backend/api/utils.py:9-12 | The pairs ("a (b", "c") and ("a", "b (c") both render "a (b (c)". The view lists them as two lines, while the label map merges them into one entry. |
| Filters.IngredientNameFilter | backend/api/filters.py:10 | The query is trimmed first, as the filter's form field does. Exactly the ingredients whose name contains the trimmed query, ignoring case, are kept. No query, or one of only whitespace, keeps everything. |
| Filters.PaddedQueryExample | backend/api/filters.py:10 | The query " salt " keeps the ingredient "Salt", because it is trimmed before the lookup. |
| Filters.SaltQueryExample | backend/api/filters.py:10 | "salt" matches "Salt", "Sea Salt" and "saltpeter" but not "Pepper". |
| Filters.AuthorFilter | backend/api/filters.py:18-21 | Exactly the recipes whose author id equals the number are kept. |
| Filters.TagsFilter | backend/api/filters.py:22-27 | An unknown slug is an error. Otherwise the filter keeps a recipe iff it has at least one requested slug, and no slugs keep everything. |
| Filters.FavoritedFilter | backend/api/filters.py:43-47 | The filter restricts to the user's favourites only for a true value from a signed-in user. Otherwise it is the identity, and it never adds recipes. |
| Filters.InShoppingCartFilter | backend/api/filters.py:49-55 | The filter restricts to the user's cart only for a true value from a signed-in user. Otherwise it is the identity, and it never adds recipes. |
| Filters.FilterRecipes | backend/api/filters.py:17-55 | The combined filter set is a subset of its input, and keeps exactly the recipes that satisfy every supplied filter. |
| Permissions.AuthorOrAdminOrReadOnlyView | backend/api/permissions.py:5-8 | Safe methods are always allowed. Unsafe ones are allowed iff the user is signed in. |
| Permissions.AuthorOrAdminOrReadOnlyObject | backend/api/permissions.py:10-13 | Safe methods are allowed regardless of ownership. Unsafe ones are allowed iff the user is the author or staff. |
| Permissions.WriteNeedsAuthorOrStaff | backend/api/permissions.py:5-13 | An unsafe request passes both checks iff the user is signed in and is the author or staff. |
| Permissions.AuthorOrAuthenticatedObject | backend/api/permissions.py:16-21 | Any signed-in user is allowed. The `author == user` branch can never admit an anonymous user. |
| RecipeModels.ColorValidatorAsWritten | backend/recipes/models.py:46-51 | The regex as written accepts a colour, or a colour followed by one final line feed. |
| RecipeModels.ColorValidatorAcceptsFinalNewline | backend/recipes/models.py:48 | "#abc\n" passes the colour validator although it is not a colour. |
| RecipeModels.ValidColor | backend/recipes/models.py:46-51 | A colour is `#` followed by exactly 3 or 6 hex digits. |
| RecipeModels.ValidSlug | backend/recipes/models.py:53-59 | A slug is a non-empty string over `[-a-zA-Z0-9_]`, with no final line feed. |
| RecipeModels.OrderedIngredients | backend/recipes/models.py:22 | The ingredient listing is a permutation of the table, sorted by name. |
| RecipeModels.OrderedRecipes | backend/recipes/models.py:115 | The recipe listing is a permutation of the table, newest `pub_date` first. |
| UserModels.ValidUsername | backend/user/models.py:18-26 | A username is a non-empty string over `[\w.@+-]`. |
| UserModels.UsernameRejectsFinalNewline | backend/user/models.py:23 | Because the pattern ends in `\Z`, no username ending in a line feed is accepted. |
| UserModels.OrderedUsers | backend/user/models.py:49 | The user listing is a permutation of the table, sorted by username. |
| Ordering.SortBy | backend/user/models.py:49 | Sorting by a total preorder yields a sorted permutation. |
| Common.SetSizeDetectsDuplicates | backend/api/serializers.py:158 | `len(set(tags)) != len(tags)` holds iff the list has a repeated element. |
| Common.Without | backend/api/views.py:75 | `filter(...).delete()` removes exactly the matching pair, one row fewer when rows are unique. |
| Store.CartRecipes | backend/api/views.py:101-102 | The recipes in the user's cart are exactly those with a (user, recipe) cart row. |
| Store.FavoriteRecipes | backend/api/filters.py:46 | The user's favourites are exactly the recipes with a (user, recipe) favourite row. |
| Text.Strip | backend/api/serializers.py:143 | Trimming removes exactly the leading and trailing characters that `str.strip()` removes among ASCII: space, `\t\n\v\f\r` and the separators `\x1c`-`\x1f`. |
| Text.ParseNatToString | backend/api/views.py:115 | The quantity is printed in decimal digits that read back as the same number. |

## Left out

- `set_password`, user creation and the djoser user views, because they are password
  hashing and account plumbing done by the auth library.
- Base64 image decoding and storage, because the image is an opaque optional string.
- The read-side serializers (`RecipeSerializer`, `SubscriptionSerializer`,
  `recipes_limit`), pagination, URL routing and the admin configuration.
- The CSV import command, because it is file I/O.
- Recipe deletion with its cascades, and PUT, which is routed to the read serializer.
- `get_object` applies the list filters before the lookup, in `post_delete` and in the
  PATCH of `Views.PartialUpdateRequest` and `Views.CorrectedPartialUpdateRequest`. The
  model looks the recipe up in the whole table, because the filters only narrow a listing
  when query parameters are given.
- Timestamps: `pub_date` is an integer parameter, and the date on the shopping list is an
  opaque string.
- Transaction atomicity and concurrent requests. Steps are modelled one after another
  without rollback, as the code runs them.
- Python's Unicode `\w`, `str.isdigit`, `str.strip` and case folding are modelled by
  ASCII approximations. String order is code-point order, not the database collation.
- The database returns grouped rows in no specified order. The model lists groups in
  order of first occurrence.
- The constants MIN_VALUE, MAX_TIME, MAX_VALUE and the field lengths live in modules
  that are not part of this model. They are fields of `RecipeModels.Limits`.
- `max_length` on the name, tag and user fields is not modelled, because the API never
  reaches the model field validators for those.
- HEAD and OPTIONS, which DRF answers for every route, and JSON type errors in the body,
  because they are framework plumbing.
- Views.DownloadShoppingCart: the `Content-Disposition` header and the file name are not
  modelled; only the body text is.
- Serializers.CheckName: `ProhibitSurrogateCharactersValidator` on the name and text
  fields is not modelled, because a Dafny `char` is a Unicode scalar value and a lone
  surrogate cannot be written. `Serializers.CheckText` and `Serializers.Acceptable` omit
  it for the same reason.
- DRF's `IntegerField` also refuses a numeric string longer than 1000 characters. The
  model takes integers already decoded.
- Staff status is the one stored with the user: `Views.KnownActor` ties the request's
  user to `Db.users`.
- Views.RelationRequest: DRF's 401 versus 403 choice depends on the authentication
  scheme. The model always answers 401 to anonymous requests, and so do
  `Views.Subscribe`, `Views.DownloadShoppingCart`, `Views.CreateRecipeRequest` and
  `Views.PatchChecks`.
- Views.PartialUpdateRequest: an ingredient entry is always an id with an amount. Under
  PATCH the nested serializer skips a missing `"id"` or `"amount"` key, and the code
  then fails with a KeyError and a server error: a missing id in `validate_ingredients`
  before anything is written, a missing amount in `create_ingredients` after the tags
  were set. On create the same missing key is a 400 "required" error. Neither is
  modelled.
- Text.Strip: `str.strip()` also removes non-ASCII whitespace such as U+0085, U+00A0
  and U+2028. The model trims only the ASCII whitespace.

## Findings

| source | as written | input that shows it | evidently intended | confidence | as-written member | corrected member |
|---|---|---|---|---|---|---|
| backend/api/serializers.py:206-209 | `instance.ingredients.clear()` empties the auto table of Recipe.ingredients, but `create_ingredients` writes IngredientRecipe rows, so the recipe's old rows survive an update | a recipe with ingredient 5, then PATCH with ingredients [(6, 1)] keeps both 5 and 6; PATCH [(5, 3)] violates `unique_recipe_ingredient` and fails with a server error | the supplied ingredients replace the recipe's old ones | high (not executed) | RecipeSaving.UpdateRecipeAsWritten, RecipeSaving.UpdateAsWrittenKeepsOldRows, Views.PartialUpdateRequest | RecipeSaving.UpdateRecipe, RecipeSaving.UpdateReplacesOldRows, Views.CorrectedPartialUpdateRequest |
| backend/recipes/models.py:48 | the colour pattern ends in `$`, which Python also matches before one final line feed | "#abc\n" | exactly `#` and 3 or 6 hex digits, as `\Z` would give | medium (not executed) | RecipeModels.ColorValidatorAsWritten, RecipeModels.ColorValidatorAcceptsFinalNewline | RecipeModels.ValidColor |

=== FILE: common.dfy ===
/** Failure-carrying result types shared by every module of the model. */
module Common {

  /** A value that may be absent: an omitted request field, a nullable column. */
  datatype Option<+T> = None | Some(value: T)

  /** The outcome of a validator: the cleaned value or the reason it was refused. */
  datatype Result<+T, +E> = Ok(value: T) | Err(error: E)

  /** The elements of a sequence as a set, built the way Python's `set(xs)` is. */
  function ToSet<T(!new)>(s: seq<T>): (r: set<T>)
    ensures forall x :: x in r <==> x in s
  {
    if |s| == 0 then {} else ToSet(s[..|s| - 1]) + {s[|s| - 1]}
  }

  /** No element occurs twice. */
  predicate NoDuplicates<T(==)>(s: seq<T>)
  {
    forall i, j :: 0 <= i < j < |s| ==> s[i] != s[j]
  }

  /** `len(set(xs)) == len(xs)` is exactly the absence of repeated elements. */
  lemma {:induction false} SetSizeDetectsDuplicates<T(!new)>(s: seq<T>)
    ensures |ToSet(s)| <= |s|
    ensures |ToSet(s)| == |s| <==> NoDuplicates(s)
  {
    if |s| > 0 {
      var p := s[..|s| - 1];
      var x := s[|s| - 1];
      assert s == p + [x];
      SetSizeDetectsDuplicates(p);
      NoDuplicatesSnoc(p, x);
      if x in p {
        assert ToSet(s) == ToSet(p);
      } else {
        assert x !in ToSet(p);
        assert |ToSet(s)| == |ToSet(p)| + 1;
      }
    }
  }

  /**
    A unique constraint on the column `key` of a table keyed by primary key: two
    different rows never share a key value.
   */
  predicate UniqueOn<K, T, F(==)>(table: map<K, T>, key: T -> F)
  {
    forall a, b :: a in table && b in table && a != b ==> key(table[a]) != key(table[b])
  }

  /** `filter(...).delete()` on a table of rows: every row equal to `x` is removed. */
  function Without<T(==,!new)>(rows: seq<T>, x: T): (r: seq<T>)
    ensures forall y :: y in r <==> y in rows && y != x
    ensures x !in rows ==> r == rows
    ensures NoDuplicates(rows) ==> NoDuplicates(r)
    ensures NoDuplicates(rows) && x in rows ==> |r| == |rows| - 1
  {
    if |rows| == 0 then []
    else
      var p := rows[..|rows| - 1];
      var y := rows[|rows| - 1];
      assert rows == p + [y];
      var rest := Without(p, x);
      assert NoDuplicates(rows) ==> NoDuplicates(p) && y !in p by {
        if NoDuplicates(rows) {
          assert forall i :: 0 <= i < |p| ==> p[i] == rows[i];
        }
      }
      if y == x then rest
      else
        NoDuplicatesSnoc(rest, y);
        rest + [y]
  }

  /** Appending an element keeps the sequence duplicate-free exactly when the element is new. */
  lemma NoDuplicatesSnoc<T>(s: seq<T>, x: T)
    ensures NoDuplicates(s + [x]) <==> NoDuplicates(s) && x !in s
  {
    var r := s + [x];
    assert forall i :: 0 <= i < |s| ==> r[i] == s[i];
    if NoDuplicates(s) && x !in s {
      forall i, j | 0 <= i < j < |r| ensures r[i] != r[j] {
        if j == |s| { assert r[i] == s[i]; }
      }
    }
    if x in s {
      var k :| 0 <= k < |s| && s[k] == x;
      assert r[k] == r[|s|];
    }
  }

  /** Removing an element appended to a sequence that lacked it gives the sequence back. */
  lemma WithoutAppended<T(!new)>(rows: seq<T>, x: T)
    requires x !in rows
    ensures Without(rows + [x], x) == rows
  {
    assert (rows + [x])[..|rows|] == rows;
  }
}

=== FILE: filters.dfy ===
/**
  The filter sets of `api/filters.py`, as functions from a set of row ids (a query set)
  to the subset the filter keeps. An omitted parameter applies no filter.
 */
module Filters {
  import opened Common
  import opened Text
  import opened UserModels
  import opened RecipeModels
  import opened Store
  import opened Http

  // ---------------------------------------------------------------- ingredients

  /** `name` contains `query` once both are lower-cased: the meaning of `icontains`. */
  ghost predicate NameMatches(name: string, query: string)
  {
    exists k :: OccursAt(Lower(query), Lower(name), k)
  }

  /**
    IngredientFilter.name, a CharFilter with `lookup_expr='icontains'`. Its form field
    trims the query first, and a query that trims to nothing applies no filter.
   */
  function IngredientNameFilter(ingredients: map<IngredientId, Ingredient>, qs: set<IngredientId>, name: Option<string>)
    : (r: set<IngredientId>)
    requires qs <= ingredients.Keys
    ensures r <= qs
    ensures name.Some? && All(name.value, IsSpace) ==> r == qs
    ensures forall i :: i in r <==> i in qs && (name.None? || NameMatches(ingredients[i].name, Strip(name.value)))
  {
    if name.None? then qs
    else
      var q := Strip(name.value);
      if q == "" then
        assert Lower(q) == [];
        assert forall i :: i in qs ==> OccursAt([], Lower(ingredients[i].name), 0);
        qs
      else
        var r := set i | i in qs && ContainsIgnoringCase(ingredients[i].name, q);
        assert forall i :: i in qs ==> (ContainsIgnoringCase(ingredients[i].name, q) <==> NameMatches(ingredients[i].name, q));
        r
  }

  /** The query " salt " is trimmed before the lookup, so it keeps "Salt". */
  lemma PaddedQueryExample()
    ensures IngredientNameFilter(map[1 := Ingredient("Salt", "g")], {1}, Some(" salt ")) == {1}
  {
    StripPaddedSalt();
    CapitalSaltMatches();
  }

  lemma StripPaddedSalt()
    ensures Strip(" salt ") == "salt"
  {
    assert LeadingSpaces(" salt ") == 1 by {
      assert " salt "[1..] == "salt ";
    }
    assert " salt "[1..] == "salt ";
    assert TrailingSpaces("salt ") == 1 by {
      assert "salt "[..4] == "salt";
    }
    assert "salt "[..4] == "salt";
  }

  /** The query "salt" matches "Salt", "Sea Salt" and "saltpeter" and not "Pepper". */
  lemma SaltQueryExample()
    ensures NameMatches("Salt", "salt") && NameMatches("Sea Salt", "salt") && NameMatches("saltpeter", "salt")
    ensures !NameMatches("Pepper", "salt")
  {
    CapitalSaltMatches();
    SeaSaltMatches();
    SaltpeterMatches();
    PepperDoesNotMatch();
  }

  lemma CapitalSaltMatches()
    ensures NameMatches("Salt", "salt")
  {
    LowerSalt();
    assert Lower("Salt") == "salt";
    assert OccursAt("salt", "salt", 0);
  }

  /** The query is lower-cased too: "SALT" finds the same names as "salt". */
  lemma SaltpeterMatches()
    ensures NameMatches("saltpeter", "salt") && NameMatches("saltpeter", "SALT")
  {
    LowerSalt();
    LowerUpperSalt();
    LowerSaltpeter();
    assert OccursAt("salt", "saltpeter", 0);
  }

  lemma LowerUpperSalt()
    ensures Lower("SALT") == "salt"
  {
  }

  lemma LowerSaltpeter()
    ensures Lower("saltpeter") == "saltpeter"
  {
    LowerWithoutCapitals("saltpeter");
  }

  lemma LowerSalt()
    ensures Lower("salt") == "salt"
  {
  }

  lemma SeaSaltMatches()
    ensures NameMatches("Sea Salt", "salt")
  {
    LowerSalt();
    assert Lower("Sea Salt") == "sea salt";
    assert OccursAt("salt", "sea salt", 4);
  }

  lemma PepperDoesNotMatch()
    ensures !NameMatches("Pepper", "salt")
  {
    LowerSalt();
    assert Lower("Pepper") == "pepper";
    assert forall k :: 0 <= k < 6 ==> "pepper"[k] != 's';
    assert forall k :: OccursAt("salt", "pepper", k) ==> "pepper"[k..k + 4][0] == 's';
  }

  // ---------------------------------------------------------------- recipes

  /** RecipeFilter.author: a NumberFilter on the author column. */
  function AuthorFilter(db: Db, qs: set<RecipeId>, author: Option<int>): (r: set<RecipeId>)
    requires qs <= db.recipes.Keys
    ensures r <= qs
    ensures author.None? ==> r == qs
    ensures author.Some? ==> forall id :: id in r <==> id in qs && db.recipes[id].author == author.value
  {
    if author.None? then qs else set id | id in qs && db.recipes[id].author == author.value
  }

  /** Recipe `id` is tagged with a tag whose slug is `slug` (the join `tags__slug`). */
  predicate HasTagSlug(db: Db, id: RecipeId, slug: string)
  {
    exists t :: (id, t) in db.recipeTags && t in db.tags && db.tags[t].slug == slug
  }

  /** The union, over the requested slugs, of the recipes carrying that slug. */
  function AnySlug(db: Db, qs: set<RecipeId>, slugs: seq<string>): (r: set<RecipeId>)
    ensures forall id :: id in r <==> id in qs && exists j :: 0 <= j < |slugs| && HasTagSlug(db, id, slugs[j])
  {
    if |slugs| == 0 then {}
    else
      var p := slugs[..|slugs| - 1];
      assert forall j :: 0 <= j < |p| ==> p[j] == slugs[j];
      AnySlug(db, qs, p) + set id | id in qs && HasTagSlug(db, id, slugs[|slugs| - 1])
  }

  /** A slug in the request that names no tag. */
  predicate UnknownSlug(db: Db, slug: string)
  {
    forall t :: t in db.tags ==> db.tags[t].slug != slug
  }

  /**
    RecipeFilter.tags, a ModelMultipleChoiceFilter on `tags__slug`: every slug must name
    a tag, and a recipe is kept when it has at least one of them.
   */
  function TagsFilter(db: Db, qs: set<RecipeId>, slugs: seq<string>): (r: Result<set<RecipeId>, string>)
    ensures r.Err? <==> exists j :: 0 <= j < |slugs| && UnknownSlug(db, slugs[j])
    ensures r.Ok? && |slugs| == 0 ==> r.value == qs
    ensures r.Ok? && |slugs| > 0 ==> forall id :: id in r.value <==>
      id in qs && exists j :: 0 <= j < |slugs| && HasTagSlug(db, id, slugs[j])
  {
    if exists j :: 0 <= j < |slugs| && UnknownSlug(db, slugs[j]) then Err("invalid_choice")
    else if |slugs| == 0 then Ok(qs)
    else Ok(AnySlug(db, qs, slugs))
  }

  /** RecipeFilter.filter_by_favorited. */
  function FavoritedFilter(db: Db, qs: set<RecipeId>, actor: Actor, value: Option<bool>): (r: set<RecipeId>)
    ensures r <= qs
    ensures !(value == Some(true) && actor.IsAuthenticated()) ==> r == qs
    ensures value == Some(true) && actor.IsAuthenticated() ==>
      forall id :: id in r <==> id in qs && UserRecipe(actor.id, id) in db.favorites
  {
    if actor.IsAuthenticated() && value == Some(true) then qs * FavoriteRecipes(db, actor.id) else qs
  }

  /** RecipeFilter.filter_by_shopping_cart. */
  function InShoppingCartFilter(db: Db, qs: set<RecipeId>, actor: Actor, value: Option<bool>): (r: set<RecipeId>)
    ensures r <= qs
    ensures !(value == Some(true) && actor.IsAuthenticated()) ==> r == qs
    ensures value == Some(true) && actor.IsAuthenticated() ==>
      forall id :: id in r <==> id in qs && UserRecipe(actor.id, id) in db.cart
  {
    if value == Some(true) && actor.IsAuthenticated() then qs * CartRecipes(db, actor.id) else qs
  }

  /** The query parameters RecipeFilter reads. */
  datatype RecipeQuery = RecipeQuery(
    author: Option<int>,
    tags: seq<string>,
    isFavorited: Option<bool>,
    isInShoppingCart: Option<bool>)

  /** What each filter asks of one recipe. */
  predicate MatchesQuery(db: Db, actor: Actor, q: RecipeQuery, id: RecipeId)
    requires id in db.recipes
  {
    && (q.author.None? || db.recipes[id].author == q.author.value)
    && (|q.tags| == 0 || exists j :: 0 <= j < |q.tags| && HasTagSlug(db, id, q.tags[j]))
    && (q.isFavorited == Some(true) && actor.IsAuthenticated() ==> UserRecipe(actor.id, id) in db.favorites)
    && (q.isInShoppingCart == Some(true) && actor.IsAuthenticated() ==> UserRecipe(actor.id, id) in db.cart)
  }

  /**
    RecipeFilter applied to a query set: the filters run one after another, so a recipe
    is kept exactly when it passes every one of them. An unknown slug makes the whole
    query invalid.
   */
  function FilterRecipes(db: Db, actor: Actor, qs: set<RecipeId>, q: RecipeQuery): (r: Result<set<RecipeId>, string>)
    requires qs <= db.recipes.Keys
    ensures r.Err? <==> exists j :: 0 <= j < |q.tags| && UnknownSlug(db, q.tags[j])
    ensures r.Ok? ==> r.value <= qs
    ensures r.Ok? ==> forall id :: id in r.value <==> id in qs && MatchesQuery(db, actor, q, id)
  {
    var byAuthor := AuthorFilter(db, qs, q.author);
    match TagsFilter(db, byAuthor, q.tags)
    case Err(e) => Err(e)
    case Ok(byTags) =>
      var byFavorite := FavoritedFilter(db, byTags, actor, q.isFavorited);
      Ok(InShoppingCartFilter(db, byFavorite, actor, q.isInShoppingCart))
  }
}

=== FILE: http.dfy ===
/** What the model keeps of an HTTP request and response. */
module Http {
  import opened UserModels

  datatype Method = GET | HEAD | OPTIONS | POST | PUT | PATCH | DELETE

  /** REST framework's SAFE_METHODS. */
  predicate IsSafe(m: Method) { m == GET || m == HEAD || m == OPTIONS }

  /** `request.user`: Django's AnonymousUser or an authenticated account with its staff flag. */
  datatype Actor = Anonymous | Member(id: UserId, isStaff: bool) {
    predicate IsAuthenticated() { Member? }

    /** `request.user == user`: the anonymous user equals no stored account. */
    predicate Is(user: UserId) { Member? && id == user }
  }

  datatype Status =
    | OK | Created | NoContent
    | BadRequest | Unauthorized | Forbidden | NotFound | MethodNotAllowed
    | ServerError
  {
    function Code(): nat
    {
      match this
      case OK => 200
      case Created => 201
      case NoContent => 204
      case BadRequest => 400
      case Unauthorized => 401
      case Forbidden => 403
      case NotFound => 404
      case MethodNotAllowed => 405
      case ServerError => 500
    }
  }
}

=== FILE: ordering.dfy ===
/**
  The default orderings declared in the models' `Meta.ordering`: a listing is the table's
  rows permuted into key order. Strings compare by code point, an approximation of the
  database collation.
 */
module Ordering {

  /** `le` is total and transitive: a sort key order with ties allowed. */
  ghost predicate TotalPreorder<T(!new)>(le: (T, T) -> bool)
  {
    && (forall a, b :: le(a, b) || le(b, a))
    && (forall a, b, c :: le(a, b) && le(b, c) ==> le(a, c))
  }

  predicate SortedBy<T>(s: seq<T>, le: (T, T) -> bool)
  {
    forall i, j :: 0 <= i < j < |s| ==> le(s[i], s[j])
  }

  /** Places `x` before the first element it is not greater than. */
  function Insert<T(!new)>(x: T, s: seq<T>, le: (T, T) -> bool): (r: seq<T>)
    requires TotalPreorder(le)
    requires SortedBy(s, le)
    ensures multiset(r) == multiset(s) + multiset{x}
    ensures SortedBy(r, le)
  {
    if |s| == 0 then [x]
    else if le(x, s[0]) then
      SortedCons(x, s, le);
      [x] + s
    else
      var t := Insert(x, s[1..], le);
      assert s == [s[0]] + s[1..];
      HeadBelowInserted(x, s, t, le);
      SortedCons(s[0], t, le);
      [s[0]] + t
  }

  /** An element below the head of a sorted sequence can go in front of it. */
  lemma SortedCons<T(!new)>(x: T, s: seq<T>, le: (T, T) -> bool)
    requires TotalPreorder(le) && SortedBy(s, le)
    requires |s| > 0 ==> le(x, s[0])
    ensures SortedBy([x] + s, le)
  {
    var r := [x] + s;
    forall i, j | 0 <= i < j < |r| ensures le(r[i], r[j]) {
      if i == 0 {
        if j > 1 { assert le(s[0], s[j - 1]); }
      } else {
        assert r[i] == s[i - 1] && r[j] == s[j - 1];
      }
    }
  }

  /** When `x` is above the head, the head is below everything the rest becomes. */
  lemma HeadBelowInserted<T(!new)>(x: T, s: seq<T>, t: seq<T>, le: (T, T) -> bool)
    requires TotalPreorder(le) && SortedBy(s, le) && |s| > 0 && !le(x, s[0])
    requires multiset(t) == multiset(s[1..]) + multiset{x}
    ensures |t| > 0 && le(s[0], t[0])
  {
    assert x in multiset(t);
    assert t[0] in multiset(t);
    if t[0] != x {
      assert t[0] in multiset(s[1..]);
      var k :| 0 <= k < |s[1..]| && s[1..][k] == t[0];
      assert le(s[0], s[k + 1]);
    }
  }

  /** Insertion sort: the rows of `s` in `le` order. */
  function SortBy<T(!new)>(s: seq<T>, le: (T, T) -> bool): (r: seq<T>)
    requires TotalPreorder(le)
    ensures multiset(r) == multiset(s)
    ensures SortedBy(r, le)
  {
    if |s| == 0 then []
    else
      assert s == [s[0]] + s[1..];
      Insert(s[0], SortBy(s[1..], le), le)
  }

  // ---------------------------------------------------------------- strings

  /** Lexicographic order on strings, by code point. */
  predicate StringLe(a: string, b: string)
  {
    |a| == 0 || (|b| > 0 && (a[0] < b[0] || (a[0] == b[0] && StringLe(a[1..], b[1..]))))
  }

  lemma {:induction false} StringLeTotal(a: string, b: string)
    ensures StringLe(a, b) || StringLe(b, a)
  {
    if |a| > 0 && |b| > 0 && a[0] == b[0] {
      StringLeTotal(a[1..], b[1..]);
    }
  }

  lemma {:induction false} StringLeTransitive(a: string, b: string, c: string)
    requires StringLe(a, b) && StringLe(b, c)
    ensures StringLe(a, c)
  {
    if |a| > 0 && a[0] == b[0] && b[0] == c[0] {
      StringLeTransitive(a[1..], b[1..], c[1..]);
    }
  }

  /** Ordering rows by a string column is a total preorder. */
  lemma StringKeyIsTotalPreorder<T(!new)>(le: (T, T) -> bool, key: T -> string)
    requires forall a, b :: le(a, b) == StringLe(key(a), key(b))
    ensures TotalPreorder(le)
  {
    forall a: T, b: T ensures le(a, b) || le(b, a) {
      StringLeTotal(key(a), key(b));
    }
    forall a: T, b: T, c: T | le(a, b) && le(b, c) ensures le(a, c) {
      StringLeTransitive(key(a), key(b), key(c));
    }
  }
}

=== FILE: permissions.dfy ===
/** The permission classes of `api/permissions.py`. */
module Permissions {
  import opened UserModels
  import opened Http

  /** IsAuthorOrAdminOrReadOnly.has_permission: reads for everyone, writes for signed-in users. */
  function AuthorOrAdminOrReadOnlyView(m: Method, actor: Actor): (b: bool)
    ensures IsSafe(m) ==> b
    ensures !IsSafe(m) ==> (b <==> actor.IsAuthenticated())
  {
    if IsSafe(m) then true else actor.IsAuthenticated()
  }

  /** IsAuthorOrAdminOrReadOnly.has_object_permission: reads for everyone, writes for the author or staff. */
  function AuthorOrAdminOrReadOnlyObject(m: Method, actor: Actor, author: UserId): (b: bool)
    ensures IsSafe(m) ==> b
    ensures !IsSafe(m) ==> (b <==> actor.Is(author) || (actor.Member? && actor.isStaff))
  {
    IsSafe(m) || actor.Is(author) || (actor.Member? && actor.isStaff)
  }

  /**
    The two checks together, as a recipe write passes them: an unsafe request on an
    object is allowed exactly for a signed-in author or a signed-in staff member, so the
    anonymous user can never change a recipe.
   */
  lemma WriteNeedsAuthorOrStaff(m: Method, actor: Actor, author: UserId)
    requires !IsSafe(m)
    ensures AuthorOrAdminOrReadOnlyView(m, actor) && AuthorOrAdminOrReadOnlyObject(m, actor, author)
        <==> actor.Member? && (actor.id == author || actor.isStaff)
    ensures actor.Anonymous? ==> !AuthorOrAdminOrReadOnlyView(m, actor)
  {
  }

  /**
    IsAuthorOrAuthenticated.has_object_permission. Its second test, the author check,
    is only reached by the anonymous user, who is nobody's author, so the class grants
    exactly the authenticated users.
   */
  function AuthorOrAuthenticatedObject(actor: Actor, author: UserId): (b: bool)
    ensures b <==> actor.IsAuthenticated()
  {
    if actor.IsAuthenticated() then true else actor.Is(author)
  }
}

=== FILE: recipe_models.dfy ===
/** The recipe tables of `recipes/models.py`, their field validators and constraints. */
module RecipeModels {
  import opened Common
  import opened Text
  import opened Ordering
  import opened UserModels

  type IngredientId = int
  type TagId = int
  type RecipeId = int

  /**
    The constants MIN_VALUE, MAX_TIME, MAX_VALUE and the text length limit, which the
    model treats as parameters.
   */
  datatype Limits = Limits(minValue: int, maxTime: int, maxValue: int, maxTextLength: nat) {
    predicate Valid() { minValue <= maxTime && minValue <= maxValue }
  }

  datatype Ingredient = Ingredient(name: string, measurementUnit: string)

  datatype Tag = Tag(name: string, color: string, slug: string)

  /** A recipe's own columns; `pubDate` stands for the creation timestamp. */
  datatype Recipe = Recipe(
    author: UserId,
    name: string,
    image: Option<string>,
    text: Option<string>,
    cookingTime: int,
    pubDate: int)

  /** A row of IngredientRecipe: how much of an ingredient a recipe needs. */
  datatype IngredientRecipe = IngredientRecipe(recipe: RecipeId, ingredient: IngredientId, amount: int)

  /** A row of TagRecipe. */
  datatype TagRecipe = TagRecipe(recipe: RecipeId, tag: TagId)

  /** A row of Favorite or of ShoppingCart: the two share this shape but not a table. */
  datatype UserRecipe = UserRecipe(user: UserId, recipe: RecipeId)

  // ---------------------------------------------------------------- colour

  predicate HexBody(s: string) { (|s| == 3 || |s| == 6) && All(s, IsHexDigit) }

  predicate ColorBody(s: string) { |s| > 0 && s[0] == '#' && HexBody(s[1..]) }

  /**
    The Tag.color validator as written, `^#([A-Fa-f0-9]{6}|[A-Fa-f0-9]{3})$`: Python's
    `$` also matches before a final line feed, so a colour followed by one is accepted.
   */
  function ColorValidatorAsWritten(s: string): (b: bool)
    ensures b <==> ValidColor(s) || (|s| > 0 && s[|s| - 1] == '\n' && ValidColor(s[..|s| - 1]))
  {
    AnchoredMatch(s, ColorBody, true)
  }

  /** "#abc\n" passes the validator although it is not a colour. */
  lemma ColorValidatorAcceptsFinalNewline()
    ensures ColorValidatorAsWritten("#abc\n")
    ensures !ValidColor("#abc\n")
  {
    assert "#abc\n"[..4] == "#abc";
    assert "#abc"[1..] == "abc";
  }

  /** The colour the validator means to accept: `#` and then exactly three or six hex digits. */
  function ValidColor(s: string): (b: bool)
    ensures b <==> (|s| == 4 || |s| == 7) && s[0] == '#' && forall i :: 1 <= i < |s| ==> IsHexDigit(s[i])
  {
    var b := AnchoredMatch(s, ColorBody, false);
    assert b ==> forall i :: 1 <= i < |s| ==> s[i] == s[1..][i - 1];
    b
  }

  // ---------------------------------------------------------------- slug

  /** The character class `[-a-zA-Z0-9_]`. */
  predicate IsSlugChar(c: char) { IsAsciiLetter(c) || IsDigit(c) || c == '_' || c == '-' }

  predicate SlugBody(s: string) { |s| > 0 && All(s, IsSlugChar) }

  /**
    A slug passes both the declared validator `^[-a-zA-Z0-9_]+$` and the one every
    SlugField carries, `^[-a-zA-Z0-9_]+\Z`; the second rejects the final line feed the
    first lets through.
   */
  function ValidSlug(s: string): (b: bool)
    ensures b <==> |s| > 0 && forall i :: 0 <= i < |s| ==> IsSlugChar(s[i])
  {
    AnchoredMatch(s, SlugBody, true) && AnchoredMatch(s, SlugBody, false)
  }

  // ---------------------------------------------------------------- model-level validators

  /** cooking_time's MinValueValidator(MIN_VALUE) and MaxValueValidator(MAX_TIME). */
  predicate ValidCookingTime(limits: Limits, t: int) { limits.minValue <= t <= limits.maxTime }

  /** amount's MinValueValidator(MIN_VALUE) and MaxValueValidator(MAX_VALUE). */
  predicate ValidAmount(limits: Limits, a: int) { limits.minValue <= a <= limits.maxValue }

  // ---------------------------------------------------------------- table constraints

  /** `unique_ingredient_unit`: no two ingredients share name and unit. */
  predicate IngredientsConstraints(ingredients: map<IngredientId, Ingredient>)
  {
    UniqueOn(ingredients, (i: Ingredient) => (i.name, i.measurementUnit))
  }

  /** Tag name, color and slug are each `unique=True`. */
  predicate TagsConstraints(tags: map<TagId, Tag>)
  {
    && UniqueOn(tags, (t: Tag) => t.name)
    && UniqueOn(tags, (t: Tag) => t.color)
    && UniqueOn(tags, (t: Tag) => t.slug)
  }

  /** cooking_time is a PositiveIntegerField: the database refuses negative values. */
  predicate RecipesConstraints(recipes: map<RecipeId, Recipe>)
  {
    forall r :: r in recipes ==> recipes[r].cookingTime >= 0
  }

  /** `unique_recipe_ingredient`, and amount is a PositiveIntegerField. */
  predicate IngredientRecipeConstraints(rows: seq<IngredientRecipe>)
  {
    && (forall i, j :: 0 <= i < j < |rows| ==>
          rows[i].recipe != rows[j].recipe || rows[i].ingredient != rows[j].ingredient)
    && (forall i :: 0 <= i < |rows| ==> rows[i].amount >= 0)
  }

  /** `unique_recipe_tag`. */
  predicate TagRecipeConstraints(rows: seq<TagRecipe>) { NoDuplicates(rows) }

  /** `unique_favourite` and `unique_shopping_cart`, one table each. */
  predicate UserRecipeConstraints(rows: seq<UserRecipe>) { NoDuplicates(rows) }

  // ---------------------------------------------------------------- default orderings

  predicate ByName(a: Ingredient, b: Ingredient) { StringLe(a.name, b.name) }

  /** Ingredient `ordering = ('name',)`. */
  function OrderedIngredients(rows: seq<Ingredient>): (r: seq<Ingredient>)
    ensures multiset(r) == multiset(rows)
    ensures forall i, j :: 0 <= i < j < |r| ==> StringLe(r[i].name, r[j].name)
  {
    StringKeyIsTotalPreorder(ByName, (i: Ingredient) => i.name);
    SortBy(rows, ByName)
  }

  predicate NewestFirst(a: Recipe, b: Recipe) { a.pubDate >= b.pubDate }

  /** Recipe `ordering = ('-pub_date',)`: newest first. */
  function OrderedRecipes(rows: seq<Recipe>): (r: seq<Recipe>)
    ensures multiset(r) == multiset(rows)
    ensures forall i, j :: 0 <= i < j < |r| ==> r[i].pubDate >= r[j].pubDate
  {
    SortBy(rows, NewestFirst)
  }
}

=== FILE: recipe_saving.dfy ===
/**
  `RecipeCreateSerializer.create` and `update`: the writes a validated request makes to
  the store. Each ORM call is one step on the database value. No transaction wraps the
  steps, so a step that fails leaves the earlier steps in place.
 */
module RecipeSaving {
  import opened Common
  import opened UserModels
  import opened RecipeModels
  import opened Store
  import opened Http
  import opened Serializers

  /** The database after a request, and the status it answered with. */
  datatype Outcome = Outcome(db: Db, status: Status)

  // ---------------------------------------------------------------- single steps

  /** `recipe.tags.set(tags)` on the auto table of Recipe.tags. */
  function SetTags(db: Db, recipe: RecipeId, tags: seq<TagId>): (r: Db)
    ensures forall t :: (recipe, t) in r.recipeTags <==> t in tags
    ensures forall p: (RecipeId, TagId) :: p.0 != recipe ==> (p in r.recipeTags <==> p in db.recipeTags)
    ensures r == db.(recipeTags := r.recipeTags)
  {
    var kept := set p | p in db.recipeTags && p.0 != recipe;
    var added := set t | t in tags :: (recipe, t);
    db.(recipeTags := kept + added)
  }

  /** `recipe.ingredients.clear()` on the auto table of Recipe.ingredients. */
  function ClearIngredients(db: Db, recipe: RecipeId): (r: Db)
    ensures forall p :: p in r.recipeIngredients <==> p in db.recipeIngredients && p.0 != recipe
    ensures r == db.(recipeIngredients := r.recipeIngredients)
  {
    db.(recipeIngredients := set p | p in db.recipeIngredients && p.0 != recipe)
  }

  /** The IngredientRecipe rows of every recipe but `recipe`, in table order. */
  function RowsNotOf(rows: seq<IngredientRecipe>, recipe: RecipeId): (r: seq<IngredientRecipe>)
    ensures forall x :: x in r <==> x in rows && x.recipe != recipe
    ensures forall other :: other != recipe ==> AmountsOf(r, other) == AmountsOf(rows, other)
    ensures AmountsOf(r, recipe) == []
  {
    if |rows| == 0 then []
    else
      var p := rows[..|rows| - 1];
      var x := rows[|rows| - 1];
      var rest := RowsNotOf(p, recipe);
      assert rows == p + [x];
      var r := if x.recipe == recipe then rest else rest + [x];
      assert forall other :: AmountsOf(r, other) == AmountsOf(rest, other) + AmountsOf(if x.recipe == recipe then [] else [x], other) by {
        forall other ensures AmountsOf(r, other) == AmountsOf(rest, other) + AmountsOf(if x.recipe == recipe then [] else [x], other) {
          if x.recipe != recipe { AmountsOfConcat(rest, [x], other); } else { assert rest + [] == rest; }
        }
      }
      assert forall other :: AmountsOf(rows, other) == AmountsOf(p, other) + AmountsOf([x], other) by {
        forall other ensures AmountsOf(rows, other) == AmountsOf(p, other) + AmountsOf([x], other) {
          AmountsOfConcat(p, [x], other);
        }
      }
      assert AmountsOf([x], recipe) == (if x.recipe == recipe then [x] else []) by {
        assert [x][..0] == [];
      }
      assert forall other :: AmountsOf([x], other) == (if x.recipe == other then [x] else []) by {
        assert [x][..0] == [];
      }
      r
  }

  /** The corrected update's extra step: `IngredientRecipe.objects.filter(recipe=recipe).delete()`. */
  function DeleteAmounts(db: Db, recipe: RecipeId): (r: Db)
    ensures AmountsOf(r.ingredientAmounts, recipe) == []
    ensures forall other :: other != recipe ==> AmountsOf(r.ingredientAmounts, other) == AmountsOf(db.ingredientAmounts, other)
    ensures r == db.(ingredientAmounts := r.ingredientAmounts)
  {
    db.(ingredientAmounts := RowsNotOf(db.ingredientAmounts, recipe))
  }

  /**
    What the database checks when IngredientRecipe rows are inserted: both foreign keys,
    the engine's integer range, `unique_recipe_ingredient` across the whole table, and
    the non-negative amount.
   */
  predicate Insertable(db: Db, rows: seq<IngredientRecipe>)
  {
    && (forall i :: 0 <= i < |rows| ==>
          rows[i].recipe in db.recipes && rows[i].ingredient in db.ingredients && rows[i].amount <= db.intMax)
    && IngredientRecipeConstraints(db.ingredientAmounts + rows)
  }

  /**
    `IngredientRecipe.objects.bulk_create(rows)`: one INSERT, so either every row is
    stored or, on an IntegrityError or a DataError, none is.
   */
  function BulkCreate(db: Db, rows: seq<IngredientRecipe>): (r: Result<Db, string>)
    ensures r.Ok? <==> Insertable(db, rows)
    ensures r.Ok? ==> r.value == db.(ingredientAmounts := db.ingredientAmounts + rows)
    ensures r.Ok? && Valid(db) ==> Valid(r.value)
  {
    if Insertable(db, rows) then Ok(db.(ingredientAmounts := db.ingredientAmounts + rows))
    else Err("IntegrityError")
  }

  /** The columns `super().update` writes: each field present in the validated data. */
  function ApplyColumns(db: Db, id: RecipeId, v: RecipeData): (r: Db)
    requires id in db.recipes
    ensures r == db.(recipes := r.recipes)
    ensures r.recipes.Keys == db.recipes.Keys
    ensures forall other :: other in db.recipes && other != id ==> r.recipes[other] == db.recipes[other]
    ensures r.recipes[id].author == db.recipes[id].author && r.recipes[id].pubDate == db.recipes[id].pubDate
    ensures r.recipes[id].name == if v.name.Some? then v.name.value else db.recipes[id].name
    ensures r.recipes[id].cookingTime == if v.cookingTime.Some? then v.cookingTime.value else db.recipes[id].cookingTime
  {
    var before := db.recipes[id];
    var updated := before.(
      name := if v.name.Some? then v.name.value else before.name,
      image := if v.image.Some? then v.image else before.image,
      text := if v.text.Some? then v.text.value else before.text,
      cookingTime := if v.cookingTime.Some? then v.cookingTime.value else before.cookingTime);
    db.(recipes := db.recipes[id := updated])
  }

  /** A supplied cooking time fits its PositiveIntegerField column. */
  predicate ColumnsFit(db: Db, v: RecipeData)
  {
    v.cookingTime.Some? ==> FitsColumn(db, v.cookingTime.value)
  }

  /**
    `super().update(instance, validated_data)`: `instance.save()` writes the columns in
    one UPDATE, which fails on a cooking time outside the column's range. The recipe's
    other columns came from the database and fit already.
   */
  function SaveColumns(db: Db, id: RecipeId, v: RecipeData): (r: Outcome)
    requires id in db.recipes
    ensures r.status == OK || r.status == ServerError
    ensures r.status == OK <==> ColumnsFit(db, v)
    ensures r.status == ServerError ==> r.db == db
    ensures r.db == db.(recipes := r.db.recipes) && r.db.recipes.Keys == db.recipes.Keys
    ensures r.status == OK ==> r.db.recipes[id].name == if v.name.Some? then v.name.value else db.recipes[id].name
  {
    if ColumnsFit(db, v) then Outcome(ApplyColumns(db, id, v), OK) else Outcome(db, ServerError)
  }

  // ---------------------------------------------------------------- create

  /**
    `create`: insert the recipe, set its tags, then bulk-create its ingredient rows. A
    cooking time outside the column's range fails the first INSERT, and nothing is
    stored. A missing ingredient id or an amount outside the range surfaces only at the
    last step, as a server error that leaves the recipe and its tags stored.
   */
  function CreateRecipe(db: Db, author: UserId, id: RecipeId, v: RecipeData, pubDate: int): (r: Outcome)
    requires Complete(v)
    requires id !in db.recipes
    ensures r.status == Created || r.status == ServerError
    ensures !ColumnsFit(db, v) ==> r == Outcome(db, ServerError)
    ensures r.status == Created ==> ColumnsFit(db, v)
    ensures ColumnsFit(db, v) ==>
      && id in r.db.recipes && r.db.recipes[id].author == author
      && r.db.recipes[id].name == v.name.value && r.db.recipes[id].cookingTime == v.cookingTime.value
      && forall t :: (id, t) in r.db.recipeTags <==> t in v.tags.value
    ensures AmountKeys(db) ==>
      AmountsOf(r.db.ingredientAmounts, id) == if r.status == Created then CreateIngredients(id, v.ingredients.value) else []
  {
    NewRecipeRows(db, id, v.ingredients.value);
    if !ColumnsFit(db, v) then Outcome(db, ServerError)
    else
      var tagged := SaveRecipeAndTags(db, author, id, v, pubDate);
      match BulkCreate(tagged, CreateIngredients(id, v.ingredients.value))
      case Err(_) => Outcome(tagged, ServerError)
      case Ok(saved) => Outcome(saved, Created)
  }

  /** The first two steps of `create`: the recipe row, then its tags; no ingredient row yet. */
  function SaveRecipeAndTags(db: Db, author: UserId, id: RecipeId, v: RecipeData, pubDate: int): (r: Db)
    requires Complete(v)
    ensures id in r.recipes && r.recipes[id].author == author
    ensures r.recipes[id].name == v.name.value && r.recipes[id].cookingTime == v.cookingTime.value
    ensures forall t :: (id, t) in r.recipeTags <==> t in v.tags.value
    ensures r.ingredientAmounts == db.ingredientAmounts && r.ingredients == db.ingredients && r.intMax == db.intMax
  {
    var recipe := Recipe(author, v.name.value, v.image,
                         if v.text.Some? then v.text.value else None, v.cookingTime.value, pubDate);
    SetTags(db.(recipes := db.recipes[id := recipe]), id, v.tags.value)
  }

  /** Before the insert a new recipe has no IngredientRecipe rows; after it, exactly the new ones. */
  lemma NewRecipeRows(db: Db, id: RecipeId, items: seq<IngredientInput>)
    requires id !in db.recipes
    ensures AmountKeys(db) ==> AmountsOf(db.ingredientAmounts, id) == []
    ensures AmountKeys(db) ==> AmountsOf(db.ingredientAmounts + CreateIngredients(id, items), id) == CreateIngredients(id, items)
  {
    NoRowsOfNewRecipe(db, id);
    AmountsOfOwnRows(id, items);
    AmountsOfConcat(db.ingredientAmounts, CreateIngredients(id, items), id);
  }

  /** Every listed ingredient id names a stored ingredient, and every amount fits its column. */
  predicate ItemsStorable(db: Db, items: seq<IngredientInput>)
  {
    forall i :: 0 <= i < |items| ==> items[i].id in db.ingredients && items[i].amount <= db.intMax
  }

  /**
    For a validated ingredient list (distinct ids, positive amounts) on a consistent
    database, `create` answers 201 exactly when the cooking time fits its column, every
    ingredient id names a stored ingredient and every amount fits its column; otherwise
    one of the INSERTs fails with a server error.
   */
  lemma CreateRecipeSucceedsIff(db: Db, author: UserId, id: RecipeId, v: RecipeData, pubDate: int)
    requires Complete(v) && id !in db.recipes
    requires IngredientRecipeConstraints(db.ingredientAmounts) && AmountKeys(db)
    requires DistinctIds(v.ingredients.value) && AmountsPositive(v.ingredients.value)
    ensures CreateRecipe(db, author, id, v, pubDate).status == Created <==> ColumnsFit(db, v) && ItemsStorable(db, v.ingredients.value)
  {
    if ColumnsFit(db, v) {
      var tagged := SaveRecipeAndTags(db, author, id, v, pubDate);
      NoRowsOfNewRecipe(db, id);
      NewRowsInsertable(tagged, id, v.ingredients.value);
      CreatedIffInserted(db, author, id, v, pubDate);
    }
  }

  /** Once the recipe row is stored, `create` answers 201 exactly when its ingredient rows go in. */
  lemma CreatedIffInserted(db: Db, author: UserId, id: RecipeId, v: RecipeData, pubDate: int)
    requires Complete(v) && id !in db.recipes && ColumnsFit(db, v)
    ensures CreateRecipe(db, author, id, v, pubDate).status == Created
        <==> Insertable(SaveRecipeAndTags(db, author, id, v, pubDate), CreateIngredients(id, v.ingredients.value))
  {
  }

  lemma NoRowsOfNewRecipe(db: Db, id: RecipeId)
    requires id !in db.recipes
    ensures AmountKeys(db) ==> AmountsOf(db.ingredientAmounts, id) == []
  {
    if AmountKeys(db) {
      AmountsOfAbsent(db.ingredientAmounts, id);
    }
  }

  lemma {:induction false} AmountsOfOwnRows(id: RecipeId, items: seq<IngredientInput>)
    ensures AmountsOf(CreateIngredients(id, items), id) == CreateIngredients(id, items)
  {
    if |items| > 0 {
      var rows := CreateIngredients(id, items);
      AmountsOfOwnRows(id, items[..|items| - 1]);
      assert rows[..|rows| - 1] == CreateIngredients(id, items[..|items| - 1]);
    }
  }

  // ---------------------------------------------------------------- update

  /** `tags = validated_data.pop('tags', None)`, then `instance.tags.set(tags)` when given. */
  function Retag(db: Db, id: RecipeId, tags: Option<seq<TagId>>): (r: Db)
    ensures tags.None? ==> r == db
    ensures tags.Some? ==> forall t :: (id, t) in r.recipeTags <==> t in tags.value
    ensures forall p: (RecipeId, TagId) :: p.0 != id ==> (p in r.recipeTags <==> p in db.recipeTags)
    ensures r == db.(recipeTags := r.recipeTags)
  {
    if tags.Some? then SetTags(db, id, tags.value) else db
  }

  /**
    The ingredient step of `update` as written: `instance.ingredients.clear()` empties
    the auto table of Recipe.ingredients, which is not where `create_ingredients` writes,
    so the recipe's IngredientRecipe rows stay and the new rows are added to them.
   */
  function ReplaceIngredientsAsWritten(db: Db, id: RecipeId, items: seq<IngredientInput>): (r: Outcome)
    ensures r.status == OK || r.status == ServerError
    ensures r.db == db.(recipeIngredients := r.db.recipeIngredients, ingredientAmounts := r.db.ingredientAmounts)
    ensures r.status == OK ==>
      AmountsOf(r.db.ingredientAmounts, id) == AmountsOf(db.ingredientAmounts, id) + CreateIngredients(id, items)
    ensures r.status == ServerError ==> r.db.ingredientAmounts == db.ingredientAmounts
    ensures r.status == OK <==> Insertable(db, CreateIngredients(id, items))
  {
    var rows := CreateIngredients(id, items);
    var cleared := ClearIngredients(db, id);
    InsertableOnSameRows(db, cleared, rows);
    match BulkCreate(cleared, rows)
    case Err(_) => Outcome(cleared, ServerError)
    case Ok(saved) =>
      AmountsOfConcat(cleared.ingredientAmounts, rows, id);
      AmountsOfOwnRows(id, items);
      Outcome(saved, OK)
  }

  /**
    The ingredient step as evidently intended: the recipe's IngredientRecipe rows are
    deleted before the new ones are created, so the new list replaces the old exactly.
   */
  function ReplaceIngredients(db: Db, id: RecipeId, items: seq<IngredientInput>): (r: Outcome)
    ensures r.status == OK || r.status == ServerError
    ensures r.db == db.(recipeIngredients := r.db.recipeIngredients, ingredientAmounts := r.db.ingredientAmounts)
    ensures r.status == OK ==> AmountsOf(r.db.ingredientAmounts, id) == CreateIngredients(id, items)
    ensures r.status == ServerError ==> AmountsOf(r.db.ingredientAmounts, id) == []
    ensures forall other :: other != id ==>
      AmountsOf(r.db.ingredientAmounts, other) == AmountsOf(db.ingredientAmounts, other)
    ensures IngredientRecipeConstraints(db.ingredientAmounts) && id in db.recipes && DistinctIds(items) && AmountsPositive(items) ==>
      (r.status == OK <==> ItemsStorable(db, items))
  {
    var rows := CreateIngredients(id, items);
    var cleared := DeleteAmounts(ClearIngredients(db, id), id);
    RowsNotOfKeepsConstraintsWhen(db.ingredientAmounts, id);
    NewRowsInsertable(cleared, id, items);
    match BulkCreate(cleared, rows)
    case Err(_) => Outcome(cleared, ServerError)
    case Ok(saved) =>
      ReplacedRows(db.ingredientAmounts, cleared.ingredientAmounts, id, items);
      Outcome(saved, OK)
  }

  /**
    `update` as written: tags are replaced when given, then ingredients when given, then
    the remaining columns are saved. A server error stops the steps that follow it and
    keeps the ones before.
   */
  function UpdateRecipeAsWritten(db: Db, id: RecipeId, v: RecipeData): (r: Outcome)
    requires id in db.recipes
    ensures r.status == OK || r.status == ServerError
    ensures v.tags.None? ==> r.db.recipeTags == db.recipeTags
    ensures v.tags.Some? ==> forall t :: (id, t) in r.db.recipeTags <==> t in v.tags.value
    ensures v.ingredients.None? ==> r.db.ingredientAmounts == db.ingredientAmounts
    ensures v.ingredients.Some? && r.status == OK ==>
      AmountsOf(r.db.ingredientAmounts, id) == AmountsOf(db.ingredientAmounts, id) + CreateIngredients(id, v.ingredients.value)
    ensures r.status == OK <==>
      && (v.ingredients.Some? ==> Insertable(db, CreateIngredients(id, v.ingredients.value)))
      && ColumnsFit(db, v)
    ensures r.status == ServerError ==> r.db.recipes == db.recipes
    ensures r.db.recipes.Keys == db.recipes.Keys
    ensures r.status == OK ==> r.db.recipes[id].name == if v.name.Some? then v.name.value else db.recipes[id].name
  {
    var tagged := Retag(db, id, v.tags);
    if v.ingredients.Some? then
      InsertableOnSameRows(db, tagged, CreateIngredients(id, v.ingredients.value));
      var o := ReplaceIngredientsAsWritten(tagged, id, v.ingredients.value);
      if o.status == ServerError then o else SaveColumns(o.db, id, v)
    else
      SaveColumns(tagged, id, v)
  }

  /** Whether rows can be inserted depends only on the recipes, ingredients and IngredientRecipe tables. */
  lemma InsertableOnSameRows(db: Db, other: Db, rows: seq<IngredientRecipe>)
    requires other.recipes == db.recipes && other.ingredients == db.ingredients
    requires other.ingredientAmounts == db.ingredientAmounts && other.intMax == db.intMax
    ensures Insertable(other, rows) <==> Insertable(db, rows)
  {
  }

  /** No supplied ingredient id is already among the recipe's IngredientRecipe rows. */
  predicate NoOldRowFor(db: Db, id: RecipeId, items: seq<IngredientInput>)
  {
    forall x, i :: x in db.ingredientAmounts && x.recipe == id && 0 <= i < |items| ==> x.ingredient != items[i].id
  }

  /**
    What the insert of the update as written needs: a validated list whose ids all exist
    and whose amounts fit is inserted exactly when none of its ids is already among the
    recipe's rows, which `clear()` left in place.
   */
  lemma AddedRowsInsertable(db: Db, id: RecipeId, items: seq<IngredientInput>)
    requires IngredientRecipeConstraints(db.ingredientAmounts) && id in db.recipes
    requires DistinctIds(items) && AmountsPositive(items)
    ensures Insertable(db, CreateIngredients(id, items)) <==> ItemsStorable(db, items) && NoOldRowFor(db, id, items)
  {
    if ItemsStorable(db, items) && NoOldRowFor(db, id, items) {
      AddedRowsInsertableIf(db, id, items);
    }
    if Insertable(db, CreateIngredients(id, items)) {
      AddedRowsInsertableOnlyIf(db, id, items);
    }
  }

  lemma AddedRowsInsertableIf(db: Db, id: RecipeId, items: seq<IngredientInput>)
    requires IngredientRecipeConstraints(db.ingredientAmounts) && id in db.recipes
    requires DistinctIds(items) && AmountsPositive(items)
    requires ItemsStorable(db, items) && NoOldRowFor(db, id, items)
    ensures Insertable(db, CreateIngredients(id, items))
  {
    var rows := CreateIngredients(id, items);
    assert forall i :: 0 <= i < |rows| ==> rows[i] == IngredientRecipe(id, items[i].id, items[i].amount) by {
      assert AsInputs(rows) == items;
    }
    AppendDisjointRows(db.ingredientAmounts, rows);
  }

  lemma AddedRowsInsertableOnlyIf(db: Db, id: RecipeId, items: seq<IngredientInput>)
    requires Insertable(db, CreateIngredients(id, items))
    ensures ItemsStorable(db, items) && NoOldRowFor(db, id, items)
  {
    var rows := CreateIngredients(id, items);
    var stored := db.ingredientAmounts;
    assert forall i :: 0 <= i < |rows| ==> rows[i] == IngredientRecipe(id, items[i].id, items[i].amount) by {
      assert AsInputs(rows) == items;
    }
    var all := stored + rows;
    forall x, i | x in stored && x.recipe == id && 0 <= i < |items| ensures x.ingredient != items[i].id {
      var k :| 0 <= k < |stored| && stored[k] == x;
      assert all[k] == x && all[|stored| + i] == rows[i];
    }
  }

  /**
    `update` with the corrected ingredient step. Omitted tags or ingredients are left as
    they were; supplied ones replace the recipe's old ones, and no other recipe changes.
   */
  function UpdateRecipe(db: Db, id: RecipeId, v: RecipeData): (r: Outcome)
    requires id in db.recipes
    ensures r.status == OK || r.status == ServerError
    ensures v.tags.None? ==> r.db.recipeTags == db.recipeTags
    ensures v.tags.Some? ==> forall t :: (id, t) in r.db.recipeTags <==> t in v.tags.value
    ensures forall p: (RecipeId, TagId) :: p.0 != id ==> (p in r.db.recipeTags <==> p in db.recipeTags)
    ensures v.ingredients.None? ==> r.db.ingredientAmounts == db.ingredientAmounts && (r.status == OK <==> ColumnsFit(db, v))
    ensures v.ingredients.Some? && r.status == OK ==>
      AmountsOf(r.db.ingredientAmounts, id) == CreateIngredients(id, v.ingredients.value)
    ensures forall other :: other != id ==>
      AmountsOf(r.db.ingredientAmounts, other) == AmountsOf(db.ingredientAmounts, other)
    ensures r.db.recipes.Keys == db.recipes.Keys
    ensures IngredientRecipeConstraints(db.ingredientAmounts) && v.ingredients.Some? &&
            DistinctIds(v.ingredients.value) && AmountsPositive(v.ingredients.value) ==>
      (r.status == OK <==> ItemsStorable(db, v.ingredients.value) && ColumnsFit(db, v))
    ensures r.status == OK ==> r.db.recipes[id].name == if v.name.Some? then v.name.value else db.recipes[id].name
  {
    var tagged := Retag(db, id, v.tags);
    SameIngredientTables(db, tagged, v);
    ReplaceThenSave(tagged, id, v)
  }

  /** Retagging leaves every table the ingredient step and the columns depend on. */
  lemma SameIngredientTables(db: Db, other: Db, v: RecipeData)
    requires other == db.(recipeTags := other.recipeTags)
    ensures other.ingredientAmounts == db.ingredientAmounts && other.recipes == db.recipes
    ensures v.ingredients.Some? ==> (ItemsStorable(other, v.ingredients.value) <==> ItemsStorable(db, v.ingredients.value))
    ensures ColumnsFit(other, v) <==> ColumnsFit(db, v)
  {
  }

  /** The corrected update after its tag step: the ingredient rows, then the columns. */
  function ReplaceThenSave(db: Db, id: RecipeId, v: RecipeData): (r: Outcome)
    requires id in db.recipes
    ensures r.status == OK || r.status == ServerError
    ensures r.db.recipeTags == db.recipeTags && r.db.recipes.Keys == db.recipes.Keys
    ensures v.ingredients.None? ==> r.db.ingredientAmounts == db.ingredientAmounts && (r.status == OK <==> ColumnsFit(db, v))
    ensures v.ingredients.Some? && r.status == OK ==>
      AmountsOf(r.db.ingredientAmounts, id) == CreateIngredients(id, v.ingredients.value)
    ensures forall other :: other != id ==>
      AmountsOf(r.db.ingredientAmounts, other) == AmountsOf(db.ingredientAmounts, other)
    ensures IngredientRecipeConstraints(db.ingredientAmounts) && v.ingredients.Some? &&
            DistinctIds(v.ingredients.value) && AmountsPositive(v.ingredients.value) ==>
      (r.status == OK <==> ItemsStorable(db, v.ingredients.value) && ColumnsFit(db, v))
    ensures r.status == OK ==> r.db.recipes[id].name == if v.name.Some? then v.name.value else db.recipes[id].name
  {
    if v.ingredients.Some? then
      var o := ReplaceIngredients(db, id, v.ingredients.value);
      if o.status == ServerError then o else SaveColumns(o.db, id, v)
    else
      SaveColumns(db, id, v)
  }

  /** Appending a recipe's new rows after deleting its old ones: only that recipe's rows change. */
  lemma ReplacedRows(rows: seq<IngredientRecipe>, kept: seq<IngredientRecipe>, id: RecipeId, items: seq<IngredientInput>)
    requires AmountsOf(kept, id) == []
    requires forall other :: other != id ==> AmountsOf(kept, other) == AmountsOf(rows, other)
    ensures AmountsOf(kept + CreateIngredients(id, items), id) == CreateIngredients(id, items)
    ensures forall other :: other != id ==> AmountsOf(kept + CreateIngredients(id, items), other) == AmountsOf(rows, other)
  {
    var added := CreateIngredients(id, items);
    AmountsOfConcat(kept, added, id);
    AmountsOfOwnRows(id, items);
    forall other | other != id
      ensures AmountsOf(kept + added, other) == AmountsOf(rows, other)
    {
      AmountsOfConcat(kept, added, other);
      AmountsOfOtherRows(id, items, other);
    }
  }

  lemma {:induction false} AmountsOfOtherRows(id: RecipeId, items: seq<IngredientInput>, other: RecipeId)
    requires other != id
    ensures AmountsOf(CreateIngredients(id, items), other) == []
  {
    AmountsOfAbsent(CreateIngredients(id, items), other);
  }

  // ---------------------------------------------------------------- schema invariants

  /** The tag ids a request may attach: each names a stored tag. */
  predicate TagsExist(db: Db, tags: Option<seq<TagId>>)
  {
    tags.Some? ==> forall i :: 0 <= i < |tags.value| ==> tags.value[i] in db.tags
  }

  /**
    Saving a new recipe keeps every schema constraint, whether it ends in 201 or in the
    server error of a refused insert: the author exists, the tags exist, the cooking
    time is stored only when it fits its column, and the ingredient insert runs only
    when the database would accept it.
   */
  lemma CreateRecipeKeepsValid(db: Db, author: UserId, id: RecipeId, v: RecipeData, pubDate: int)
    requires Complete(v) && id !in db.recipes
    requires Valid(db) && author in db.users && TagsExist(db, v.tags)
    ensures Valid(CreateRecipe(db, author, id, v, pubDate).db)
  {
    if ColumnsFit(db, v) {
      var recipe := Recipe(author, v.name.value, v.image,
                           if v.text.Some? then v.text.value else None, v.cookingTime.value, pubDate);
      var withRecipe := db.(recipes := db.recipes[id := recipe]);
      NewRecipeKeepsValid(db, id, recipe);
      SetTagsKeepsValid(withRecipe, id, v.tags.value);
    }
  }

  lemma NewRecipeKeepsValid(db: Db, id: RecipeId, recipe: Recipe)
    requires Valid(db) && id !in db.recipes && recipe.author in db.users && recipe.cookingTime >= 0
    ensures Valid(db.(recipes := db.recipes[id := recipe]))
  {
  }

  lemma SetTagsKeepsValid(db: Db, id: RecipeId, tags: seq<TagId>)
    requires Valid(db) && id in db.recipes && TagsExist(db, Some(tags))
    ensures Valid(SetTags(db, id, tags))
  {
    var tagged := SetTags(db, id, tags);
    forall p | p in tagged.recipeTags ensures p.0 in tagged.recipes && p.1 in tagged.tags {
      if p.0 == id {
        var k :| 0 <= k < |tags| && tags[k] == p.1;
      }
    }
  }

  /**
    The corrected update keeps every schema constraint: its tag ids exist, its cooking
    time is saved only when it fits its column, the recipe's old IngredientRecipe rows
    are gone before the new ones are inserted, and the insert runs only when the
    database would accept it.
   */
  lemma UpdateRecipeKeepsValid(db: Db, id: RecipeId, v: RecipeData)
    requires id in db.recipes && Valid(db) && TagsExist(db, v.tags)
    ensures Valid(UpdateRecipe(db, id, v).db)
  {
    var tagged := Retag(db, id, v.tags);
    if v.tags.Some? {
      SetTagsKeepsValid(db, id, v.tags.value);
    }
    if v.ingredients.Some? {
      ReplaceIngredientsKeepsValid(tagged, id, v.ingredients.value);
      var o := ReplaceIngredients(tagged, id, v.ingredients.value);
      if o.status != ServerError {
        SaveColumnsKeepsValid(o.db, id, v);
      }
    } else {
      SaveColumnsKeepsValid(tagged, id, v);
    }
  }

  /**
    The update as written keeps every schema constraint too: the recipe's old rows stay,
    but the insert of the new ones runs only when `unique_recipe_ingredient` and the
    foreign keys still hold afterwards.
   */
  lemma UpdateRecipeAsWrittenKeepsValid(db: Db, id: RecipeId, v: RecipeData)
    requires id in db.recipes && Valid(db) && TagsExist(db, v.tags)
    ensures Valid(UpdateRecipeAsWritten(db, id, v).db)
  {
    var tagged := Retag(db, id, v.tags);
    if v.tags.Some? {
      SetTagsKeepsValid(db, id, v.tags.value);
    }
    if v.ingredients.Some? {
      ReplaceIngredientsAsWrittenKeepsValid(tagged, id, v.ingredients.value);
      var o := ReplaceIngredientsAsWritten(tagged, id, v.ingredients.value);
      if o.status != ServerError {
        SaveColumnsKeepsValid(o.db, id, v);
      }
    } else {
      SaveColumnsKeepsValid(tagged, id, v);
    }
  }

  lemma SaveColumnsKeepsValid(db: Db, id: RecipeId, v: RecipeData)
    requires id in db.recipes && Valid(db)
    ensures Valid(SaveColumns(db, id, v).db)
  {
  }

  lemma ReplaceIngredientsAsWrittenKeepsValid(db: Db, id: RecipeId, items: seq<IngredientInput>)
    requires id in db.recipes && Valid(db)
    ensures Valid(ReplaceIngredientsAsWritten(db, id, items).db)
  {
    assert Valid(ClearIngredients(db, id));
  }

  lemma ReplaceIngredientsKeepsValid(db: Db, id: RecipeId, items: seq<IngredientInput>)
    requires id in db.recipes && Valid(db)
    ensures Valid(ReplaceIngredients(db, id, items).db)
  {
    var cleared := DeleteAmounts(ClearIngredients(db, id), id);
    RowsNotOfKeepsConstraints(db.ingredientAmounts, id);
    assert AmountKeys(cleared) by {
      forall i | 0 <= i < |cleared.ingredientAmounts|
        ensures cleared.ingredientAmounts[i].recipe in db.recipes && cleared.ingredientAmounts[i].ingredient in db.ingredients
      {
        var x := cleared.ingredientAmounts[i];
        assert x in cleared.ingredientAmounts;
        var k :| 0 <= k < |db.ingredientAmounts| && db.ingredientAmounts[k] == x;
      }
    }
    assert Valid(cleared);
  }

  // ---------------------------------------------------------------- when the insert succeeds

  /**
    A recipe with no IngredientRecipe rows yet can take the rows of a validated list,
    as long as every id names a stored ingredient and every amount fits its column: the
    list's ids are distinct and its amounts positive, so nothing else can make the
    insert fail.
   */
  lemma NewRowsInsertable(db: Db, id: RecipeId, items: seq<IngredientInput>)
    ensures && IngredientRecipeConstraints(db.ingredientAmounts)
            && AmountsOf(db.ingredientAmounts, id) == []
            && id in db.recipes
            && DistinctIds(items) && AmountsPositive(items)
        ==> (Insertable(db, CreateIngredients(id, items)) <==> ItemsStorable(db, items))
  {
    if && IngredientRecipeConstraints(db.ingredientAmounts)
       && AmountsOf(db.ingredientAmounts, id) == []
       && id in db.recipes
       && DistinctIds(items) && AmountsPositive(items)
    {
      NewRowsInsertableNow(db, id, items);
    }
  }

  lemma NewRowsInsertableNow(db: Db, id: RecipeId, items: seq<IngredientInput>)
    requires IngredientRecipeConstraints(db.ingredientAmounts)
    requires AmountsOf(db.ingredientAmounts, id) == []
    requires id in db.recipes
    requires DistinctIds(items) && AmountsPositive(items)
    ensures Insertable(db, CreateIngredients(id, items)) <==> ItemsStorable(db, items)
  {
    AmountsOfEmpty(db.ingredientAmounts, id);
    assert NoOldRowFor(db, id, items);
    AddedRowsInsertable(db, id, items);
  }

  /**
    Rows with pairwise distinct (recipe, ingredient) pairs can join a table that holds
    none of those pairs.
   */
  lemma AppendDisjointRows(stored: seq<IngredientRecipe>, rows: seq<IngredientRecipe>)
    requires IngredientRecipeConstraints(stored)
    requires forall x, i :: x in stored && 0 <= i < |rows| ==> x.recipe != rows[i].recipe || x.ingredient != rows[i].ingredient
    requires forall i :: 0 <= i < |rows| ==> rows[i].amount >= 0
    requires forall i, j :: 0 <= i < j < |rows| ==> rows[i].recipe != rows[j].recipe || rows[i].ingredient != rows[j].ingredient
    ensures IngredientRecipeConstraints(stored + rows)
  {
    var all := stored + rows;
    forall i, j | 0 <= i < j < |all|
      ensures all[i].recipe != all[j].recipe || all[i].ingredient != all[j].ingredient
    {
      if j < |stored| {
        assert all[i] == stored[i] && all[j] == stored[j];
      } else if i < |stored| {
        assert all[i] == stored[i] && stored[i] in stored;
        assert all[j] == rows[j - |stored|];
      } else {
        assert all[i] == rows[i - |stored|] && all[j] == rows[j - |stored|];
      }
    }
    forall i | 0 <= i < |all| ensures all[i].amount >= 0 {
      if i < |stored| { assert all[i] == stored[i]; } else { assert all[i] == rows[i - |stored|]; }
    }
  }

  lemma RowsNotOfKeepsConstraintsWhen(rows: seq<IngredientRecipe>, recipe: RecipeId)
    ensures IngredientRecipeConstraints(rows) ==> IngredientRecipeConstraints(RowsNotOf(rows, recipe))
  {
    if IngredientRecipeConstraints(rows) { RowsNotOfKeepsConstraints(rows, recipe); }
  }

  /** Dropping rows keeps `unique_recipe_ingredient` and the amount check. */
  lemma {:induction false} RowsNotOfKeepsConstraints(rows: seq<IngredientRecipe>, recipe: RecipeId)
    requires IngredientRecipeConstraints(rows)
    ensures IngredientRecipeConstraints(RowsNotOf(rows, recipe))
  {
    if |rows| > 0 {
      var p := rows[..|rows| - 1];
      var x := rows[|rows| - 1];
      assert IngredientRecipeConstraints(p) by {
        assert forall i :: 0 <= i < |p| ==> p[i] == rows[i];
      }
      RowsNotOfKeepsConstraints(p, recipe);
      var rest := RowsNotOf(p, recipe);
      if x.recipe != recipe {
        var r := rest + [x];
        forall i, j | 0 <= i < j < |r| ensures r[i].recipe != r[j].recipe || r[i].ingredient != r[j].ingredient {
          if j == |rest| {
            assert r[i] == rest[i] && rest[i] in p;
            var k :| 0 <= k < |p| && p[k] == rest[i];
            assert rows[k] == p[k] && rows[|rows| - 1] == x;
          } else {
            assert r[i] == rest[i] && r[j] == rest[j];
          }
        }
        forall i | 0 <= i < |r| ensures r[i].amount >= 0 {
          if i < |rest| {
            assert r[i] == rest[i];
          }
        }
      }
    }
  }

  /** A store with one recipe that already uses ingredient 5, and ingredient 6 unused. */
  function SoupStore(): Db
  {
    Db(map[1 := User("cook@example.com", "cook", "Ann", "Lee", false)],
       map[5 := Ingredient("salt", "g"), 6 := Ingredient("sugar", "g")],
       map[],
       map[1 := Recipe(1, "Soup", None, None, 10, 0)],
       {}, {(1, 5)},
       [IngredientRecipe(1, 5, 2)],
       [], [], [], [],
       SafeIntegerMax)
  }

  /** The store's shape the two examples below depend on. */
  predicate SoupShape(db: Db)
  {
    1 in db.recipes && 5 in db.ingredients && 6 in db.ingredients
    && db.ingredientAmounts == [IngredientRecipe(1, 5, 2)]
    && db.intMax == SafeIntegerMax
  }

  lemma OneRow(id: RecipeId, ingredient: IngredientId, amount: int)
    ensures CreateIngredients(id, [IngredientInput(ingredient, amount)]) == [IngredientRecipe(id, ingredient, amount)]
  {
    assert [IngredientInput(ingredient, amount)][..0] == [];
  }

  lemma AsWrittenAddsSugar(db: Db)
    requires SoupShape(db)
    ensures var v := RecipeData(None, Some([IngredientInput(6, 1)]), None, None, None, None);
      var r := UpdateRecipeAsWritten(db, 1, v);
      r.status == OK && AmountsOf(r.db.ingredientAmounts, 1) == [IngredientRecipe(1, 5, 2), IngredientRecipe(1, 6, 1)]
  {
    OneRow(1, 6, 1);
    SugarInsertable(db);
    SingleRowAmounts(IngredientRecipe(1, 5, 2));
    assert [IngredientRecipe(1, 5, 2)] + [IngredientRecipe(1, 6, 1)] == [IngredientRecipe(1, 5, 2), IngredientRecipe(1, 6, 1)];
  }

  lemma SugarInsertable(db: Db)
    requires SoupShape(db)
    ensures Insertable(db, [IngredientRecipe(1, 6, 1)])
  {
    TwoRowsUnique(IngredientRecipe(1, 5, 2), IngredientRecipe(1, 6, 1));
  }

  lemma TwoRowsUnique(a: IngredientRecipe, b: IngredientRecipe)
    requires a.ingredient != b.ingredient && a.amount >= 0 && b.amount >= 0
    ensures IngredientRecipeConstraints([a] + [b])
  {
  }

  lemma SingleRowAmounts(x: IngredientRecipe)
    ensures AmountsOf([x], x.recipe) == [x]
  {
    assert [x][..0] == [];
  }

  lemma AsWrittenRefusesSalt(db: Db)
    requires SoupShape(db)
    ensures UpdateRecipeAsWritten(db, 1, RecipeData(None, Some([IngredientInput(5, 3)]), None, None, None, None)).status == ServerError
  {
    OneRow(1, 5, 3);
    var all := db.ingredientAmounts + [IngredientRecipe(1, 5, 3)];
    assert all[0].recipe == all[1].recipe && all[0].ingredient == all[1].ingredient;
    assert !Insertable(db, [IngredientRecipe(1, 5, 3)]);
  }

  lemma CorrectedReplaces(db: Db, ingredient: IngredientId, amount: int)
    requires SoupShape(db)
    requires ingredient in db.ingredients && FitsColumn(db, amount)
    ensures var r := ReplaceIngredients(db, 1, [IngredientInput(ingredient, amount)]);
      r.status == OK && AmountsOf(r.db.ingredientAmounts, 1) == [IngredientRecipe(1, ingredient, amount)]
  {
    OneRow(1, ingredient, amount);
    var cleared := DeleteAmounts(ClearIngredients(db, 1), 1);
    assert [IngredientRecipe(1, 5, 2)][..0] == [];
    assert cleared.ingredientAmounts == [];
    assert Insertable(cleared, [IngredientRecipe(1, ingredient, amount)]);
  }

  /**
    PATCHing the ingredient list to `[{"id": 6, "amount": 1}]` answers 200 yet the
    recipe keeps its salt row beside the new sugar row; PATCHing it to
    `[{"id": 5, "amount": 3}]` violates `unique_recipe_ingredient` and answers 500.
   */
  lemma UpdateAsWrittenKeepsOldRows()
    ensures var v := RecipeData(None, Some([IngredientInput(6, 1)]), None, None, None, None);
      var r := UpdateRecipeAsWritten(SoupStore(), 1, v);
      && r.status == OK
      && AmountsOf(r.db.ingredientAmounts, 1) == [IngredientRecipe(1, 5, 2), IngredientRecipe(1, 6, 1)]
      && AmountsOf(r.db.ingredientAmounts, 1) != CreateIngredients(1, v.ingredients.value)
    ensures var v := RecipeData(None, Some([IngredientInput(5, 3)]), None, None, None, None);
      UpdateRecipeAsWritten(SoupStore(), 1, v).status == ServerError
  {
    assert SoupShape(SoupStore());
    AsWrittenAddsSugar(SoupStore());
    AsWrittenRefusesSalt(SoupStore());
    OneRow(1, 6, 1);
  }

  /** The same two requests against the corrected update: each list replaces the old one. */
  lemma UpdateReplacesOldRows()
    ensures var v := RecipeData(None, Some([IngredientInput(6, 1)]), None, None, None, None);
      var r := UpdateRecipe(SoupStore(), 1, v);
      r.status == OK && AmountsOf(r.db.ingredientAmounts, 1) == [IngredientRecipe(1, 6, 1)]
    ensures var v := RecipeData(None, Some([IngredientInput(5, 3)]), None, None, None, None);
      var r := UpdateRecipe(SoupStore(), 1, v);
      r.status == OK && AmountsOf(r.db.ingredientAmounts, 1) == [IngredientRecipe(1, 5, 3)]
  {
    assert SoupShape(SoupStore());
    CorrectedUpdateReplaces(SoupStore(), 6, 1);
    CorrectedUpdateReplaces(SoupStore(), 5, 3);
  }

  lemma CorrectedUpdateReplaces(db: Db, ingredient: IngredientId, amount: int)
    requires SoupShape(db)
    requires ingredient in db.ingredients && FitsColumn(db, amount)
    ensures var r := UpdateRecipe(db, 1, RecipeData(None, Some([IngredientInput(ingredient, amount)]), None, None, None, None));
      r.status == OK && AmountsOf(r.db.ingredientAmounts, 1) == [IngredientRecipe(1, ingredient, amount)]
  {
    CorrectedReplaces(db, ingredient, amount);
  }
}

=== FILE: serializers.dfy ===
/**
  Input validation of `RecipeCreateSerializer`: the field-level validators, the
  `validate_<field>` hooks, and the way the serializer collects one error per failing
  field. Each check is paired with a declarative statement of what it accepts.
 */
module Serializers {
  import opened Common
  import opened Text
  import opened RecipeModels
  import opened Store

  /** One entry of the `ingredients` list: `{"id": …, "amount": …}`. */
  datatype IngredientInput = IngredientInput(id: int, amount: int)

  /** The writable fields of the serializer. */
  datatype Field = Tags | Ingredients | Name | Image | Text | CookingTime

  /**
    A request body after JSON decoding: `None` is an omitted key. `text` is nullable,
    so it carries a second `Option` for an explicit null. The image is its payload,
    whose decoding is not modelled.
   */
  datatype RecipeData = RecipeData(
    tags: Option<seq<TagId>>,
    ingredients: Option<seq<IngredientInput>>,
    name: Option<string>,
    image: Option<string>,
    text: Option<Option<string>>,
    cookingTime: Option<int>)

  // ---------------------------------------------------------------- tags

  const NoTags := "Необходимо добавить хотя бы один тег!"
  const RepeatedTags := "Теги должны быть уникальны!"

  /** `validate_tags`: a non-empty list in which `len(set(tags)) == len(tags)`. */
  function ValidateTags(tags: seq<TagId>): (r: Result<seq<TagId>, string>)
    ensures |tags| == 0 ==> r == Err(NoTags)
    ensures r.Ok? <==> |tags| > 0 && NoDuplicates(tags)
    ensures r.Ok? ==> r.value == tags
  {
    SetSizeDetectsDuplicates(tags);
    if |tags| == 0 then Err(NoTags)
    else if |ToSet(tags)| != |tags| then Err(RepeatedTags)
    else Ok(tags)
  }

  /** The primary-key field runs first: every id must name a stored tag. */
  function CheckTags(db: Db, tags: seq<TagId>): (r: Result<seq<TagId>, string>)
    ensures (exists i :: 0 <= i < |tags| && tags[i] !in db.tags) ==> r == Err("does_not_exist")
    ensures r.Ok? <==> (forall i :: 0 <= i < |tags| ==> tags[i] in db.tags) && |tags| > 0 && NoDuplicates(tags)
    ensures r.Ok? ==> r.value == tags
  {
    if forall i :: 0 <= i < |tags| ==> tags[i] in db.tags then ValidateTags(tags)
    else Err("does_not_exist")
  }

  // ---------------------------------------------------------------- ingredients

  const NoIngredients := "Необходимо добавить хотя бы один ингредиент!"
  const RepeatedIngredients := "Ингрединеты не могут повторяться!"

  /** No ingredient id occurs twice, whatever the amounts. */
  predicate DistinctIds(items: seq<IngredientInput>)
  {
    forall i, j :: 0 <= i < j < |items| ==> items[i].id != items[j].id
  }

  /**
    The loop of `validate_ingredients`: walking the list while remembering the ids seen,
    it stops at the first id already in `seen`.
   */
  function {:induction false} RepeatedId(items: seq<IngredientInput>, seen: set<int>): (b: bool)
    ensures b <==> (exists i :: 0 <= i < |items| && items[i].id in seen) || !DistinctIds(items)
    decreases |items|
  {
    if |items| == 0 then false
    else if items[0].id in seen then true
    else
      var rest := items[1..];
      var b := RepeatedId(rest, seen + {items[0].id});
      assert DistinctIds(items) <==> DistinctIds(rest) && forall i :: 0 <= i < |rest| ==> rest[i].id != items[0].id by {
        assert forall i :: 0 <= i < |rest| ==> rest[i] == items[i + 1];
        if DistinctIds(rest) && forall i :: 0 <= i < |rest| ==> rest[i].id != items[0].id {
          forall i, j | 0 <= i < j < |items| ensures items[i].id != items[j].id {
            if i > 0 { assert items[i] == rest[i - 1]; }
            assert items[j] == rest[j - 1];
          }
        }
        if DistinctIds(items) {
          forall i | 0 <= i < |rest| ensures rest[i].id != items[0].id {
            assert rest[i] == items[i + 1];
          }
        }
      }
      assert (exists i :: 0 <= i < |items| && items[i].id in seen)
        <==> (exists i :: 0 <= i < |rest| && rest[i].id in seen) by {
        if i :| 0 <= i < |items| && items[i].id in seen {
          assert i > 0 && rest[i - 1] == items[i];
        }
      }
      b
  }

  /** The nested serializer's `amount` field: MinValueValidator(1) on every entry. */
  predicate AmountsPositive(items: seq<IngredientInput>)
  {
    forall i :: 0 <= i < |items| ==> items[i].amount >= 1
  }

  /**
    The `ingredients` field: each entry's amount is validated first, then
    `validate_ingredients` refuses an empty list and a repeated id.
   */
  function ValidateIngredients(items: seq<IngredientInput>): (r: Result<seq<IngredientInput>, string>)
    ensures |items| == 0 ==> r == Err(NoIngredients)
    ensures r.Ok? <==> |items| > 0 && DistinctIds(items) && AmountsPositive(items)
    ensures r.Ok? ==> r.value == items
  {
    if !AmountsPositive(items) then Err("min_value")
    else if |items| == 0 then Err(NoIngredients)
    else if RepeatedId(items, {}) then Err(RepeatedIngredients)
    else Ok(items)
  }

  // ---------------------------------------------------------------- name and text

  /** The characters of the set `/!*@#$%^&*()_+={}[]|:;"<>,.?-`. */
  predicate IsPunct(c: char)
  {
    c in {'/', '!', '*', '@', '#', '$', '%', '^', '&', '(', ')', '_', '+', '=', '{', '}',
          '[', ']', '|', ':', ';', '"', '<', '>', ',', '.', '?', '-'}
  }

  /** Python's `str.isdigit()`, on ASCII digits: false for the empty string. */
  predicate IsDigitString(s: string) { |s| > 0 && All(s, IsDigit) }

  /**
    `validate_name`: a name made only of digits, or only of the listed punctuation, is
    refused. Both tests are Python's `all`, which is true of the empty name.
   */
  function ValidateName(s: string): (r: Result<string, string>)
    ensures r.Ok? <==> (exists i :: 0 <= i < |s| && !IsPunct(s[i])) && (exists i :: 0 <= i < |s| && !IsDigit(s[i]))
    ensures r.Ok? ==> r.value == s
  {
    if IsDigitString(s) || All(s, IsPunct) then Err("Название не может состоять только из цифр или знаков")
    else Ok(s)
  }

  lemma NameExamples()
    ensures ValidateName("").Err?
    ensures ValidateName("123").Err? && ValidateName("?!-").Err?
    ensures ValidateName("12-3").Ok? && ValidateName("Борщ").Ok?
  {
    DigitsRefused();
    PunctuationRefused();
    MixedAccepted();
    CyrillicAccepted();
  }

  lemma DigitsRefused()
    ensures ValidateName("123").Err?
  {
    assert IsDigitString("123");
  }

  lemma PunctuationRefused()
    ensures ValidateName("?!-").Err?
  {
    assert All("?!-", IsPunct);
  }

  lemma MixedAccepted()
    ensures ValidateName("12-3").Ok?
  {
    assert !IsDigit('-') && !IsPunct('1');
    assert "12-3"[2] == '-' && "12-3"[0] == '1';
  }

  lemma CyrillicAccepted()
    ensures ValidateName("Борщ").Ok?
  {
    assert !IsDigit('Б') && !IsPunct('Б');
    assert "Борщ"[0] == 'Б';
  }

  /** Every CharField carries ProhibitNullCharactersValidator: no NUL character anywhere. */
  predicate NoNullCharacter(s: string) { forall i :: 0 <= i < |s| ==> s[i] != '\0' }

  /**
    The `name` field, a CharField: surrounding whitespace is trimmed, a blank value is
    refused, the field's validators refuse a NUL character, and `validate_name` sees
    the trimmed value.
   */
  function CheckName(s: string): (r: Result<string, string>)
    ensures |Strip(s)| == 0 ==> r == Err("blank")
    ensures var t := Strip(s);
      r.Ok? <==>
        && (exists i :: 0 <= i < |t| && !IsPunct(t[i]))
        && (exists i :: 0 <= i < |t| && !IsDigit(t[i]))
        && NoNullCharacter(t)
    ensures r.Ok? ==> r.value == Strip(s) && |r.value| > 0 && NoNullCharacter(r.value)
  {
    var t := Strip(s);
    if |t| == 0 then Err("blank")
    else if !NoNullCharacter(t) then Err("null_characters_not_allowed")
    else ValidateName(t)
  }

  /** A name of separator characters trims to nothing and is refused as blank. */
  lemma SeparatorsOnlyNameBlank()
    ensures CheckName(" \U{001C}\t") == Err("blank")
  {
    assert LeadingSpaces(" \U{001C}\t") == 3 by {
      assert " \U{001C}\t"[1..][1..] == "\t";
    }
  }

  /** A name with a NUL character is refused although `validate_name` alone would take it. */
  lemma NullCharacterRefused()
    ensures ValidateName("ab\0").Ok?
    ensures CheckName("ab\0").Err?
  {
    assert "ab\0"[0] == 'a';
    assert !NoNullCharacter("ab\0") by { assert "ab\0"[2] == '\0'; }
    StripKeepsNull();
  }

  lemma StripKeepsNull()
    ensures Strip("ab\0") == "ab\0"
  {
    assert LeadingSpaces("ab\0") == 0;
    assert TrailingSpaces("ab\0") == 0;
    assert "ab\0"[0..][..3] == "ab\0";
  }

  /**
    The `text` field the model serializer derives from a nullable TextField: trimmed,
    not blank, at most the column's `max_length` long, and free of NUL characters.
   */
  function CheckText(limits: Limits, s: string): (r: Result<string, string>)
    ensures r.Ok? <==> 0 < |Strip(s)| <= limits.maxTextLength && NoNullCharacter(Strip(s))
    ensures r.Ok? ==> r.value == Strip(s)
  {
    var t := Strip(s);
    if |t| == 0 then Err("blank")
    else if |t| > limits.maxTextLength then Err("max_length")
    else if !NoNullCharacter(t) then Err("null_characters_not_allowed")
    else Ok(t)
  }

  /** `cooking_time` and `amount` are IntegerFields with MinValueValidator(1) only. */
  function CheckCookingTime(t: int): (r: Result<int, string>)
    ensures r.Ok? <==> t >= 1
    ensures r.Ok? ==> r.value == t
  {
    if t < 1 then Err("min_value") else Ok(t)
  }

  // ---------------------------------------------------------------- the whole body

  /** What the serializer accepts, field by field, stated without the validators. */
  predicate Acceptable(db: Db, limits: Limits, input: RecipeData, partial: bool, f: Field)
  {
    match f
    case Tags =>
      if input.tags.None? then partial
      else
        var ts := input.tags.value;
        |ts| > 0 && NoDuplicates(ts) && forall i :: 0 <= i < |ts| ==> ts[i] in db.tags
    case Ingredients =>
      if input.ingredients.None? then partial
      else
        var xs := input.ingredients.value;
        |xs| > 0 && DistinctIds(xs) && AmountsPositive(xs)
    case Name =>
      if input.name.None? then partial
      else
        var t := Strip(input.name.value);
        && (exists i :: 0 <= i < |t| && !IsPunct(t[i]))
        && (exists i :: 0 <= i < |t| && !IsDigit(t[i]))
        && NoNullCharacter(t)
    case Image => input.image.Some? || partial
    case Text =>
      input.text.None? || input.text.value.None? ||
      (0 < |Strip(input.text.value.value)| <= limits.maxTextLength && NoNullCharacter(Strip(input.text.value.value)))
    case CookingTime => if input.cookingTime.None? then partial else input.cookingTime.value >= 1
  }

  /** Runs a field's check when the key is present; an absent key is an error unless `partial`. */
  function FieldOf<T>(v: Option<T>, partial: bool, check: T -> Result<T, string>): (r: Result<Option<T>, string>)
    ensures v.None? ==> (r.Ok? <==> partial) && (r.Ok? ==> r.value.None?)
    ensures v.Some? ==> (r.Ok? <==> check(v.value).Ok?) && (r.Ok? ==> r.value == Some(check(v.value).value))
  {
    match v
    case None => if partial then Ok(None) else Err("required")
    case Some(x) => match check(x) case Ok(y) => Ok(Some(y)) case Err(e) => Err(e)
  }

  /** `text` is not required and may be null. */
  function TextOf(limits: Limits, v: Option<Option<string>>): (r: Result<Option<Option<string>>, string>)
  {
    match v
    case None => Ok(None)
    case Some(None) => Ok(Some(None))
    case Some(Some(s)) => match CheckText(limits, s) case Ok(t) => Ok(Some(Some(t))) case Err(e) => Err(e)
  }

  /** The outcome of every field's check, before the errors are collected. */
  datatype Checks = Checks(
    tags: Result<Option<seq<TagId>>, string>,
    ingredients: Result<Option<seq<IngredientInput>>, string>,
    name: Result<Option<string>, string>,
    image: Result<Option<string>, string>,
    text: Result<Option<Option<string>>, string>,
    cookingTime: Result<Option<int>, string>)
  {
    predicate Passed(f: Field)
    {
      match f
      case Tags => tags.Ok?
      case Ingredients => ingredients.Ok?
      case Name => name.Ok?
      case Image => image.Ok?
      case Text => text.Ok?
      case CookingTime => cookingTime.Ok?
    }

    /** The fields whose check failed: the keys of `serializer.errors`. */
    function Failing(): (e: set<Field>)
      ensures forall f :: f in e <==> !Passed(f)
    {
      (if tags.Ok? then {} else {Tags}) + (if ingredients.Ok? then {} else {Ingredients})
      + (if name.Ok? then {} else {Name}) + (if image.Ok? then {} else {Image})
      + (if text.Ok? then {} else {Text}) + (if cookingTime.Ok? then {} else {CookingTime})
    }
  }

  function RunChecks(db: Db, limits: Limits, input: RecipeData, partial: bool): Checks
  {
    Checks(
      FieldOf(input.tags, partial, ts => CheckTags(db, ts)),
      FieldOf(input.ingredients, partial, ValidateIngredients),
      FieldOf(input.name, partial, CheckName),
      FieldOf(input.image, partial, (x: string) => Ok(x)),
      TextOf(limits, input.text),
      FieldOf(input.cookingTime, partial, CheckCookingTime))
  }

  lemma NameCheckMeaning(s: string)
    ensures var t := Strip(s);
      CheckName(s).Ok? <==>
        && (exists i :: 0 <= i < |t| && !IsPunct(t[i]))
        && (exists i :: 0 <= i < |t| && !IsDigit(t[i]))
        && NoNullCharacter(t)
  {
  }

  /** Each field's check passes exactly when the field is acceptable. */
  lemma ChecksMeaning(db: Db, limits: Limits, input: RecipeData, partial: bool, f: Field)
    ensures RunChecks(db, limits, input, partial).Passed(f) <==> Acceptable(db, limits, input, partial, f)
  {
    match f
    case Tags => TagsCheckMeaning(db, limits, input, partial);
    case Ingredients => IngredientsCheckMeaning(db, limits, input, partial);
    case Name => NameFieldMeaning(db, limits, input, partial);
    case Image =>
    case Text => TextCheckMeaning(db, limits, input, partial);
    case CookingTime => CookingTimeCheckMeaning(db, limits, input, partial);
  }

  lemma TagsCheckMeaning(db: Db, limits: Limits, input: RecipeData, partial: bool)
    ensures RunChecks(db, limits, input, partial).tags.Ok? <==> Acceptable(db, limits, input, partial, Tags)
  {
  }

  lemma IngredientsCheckMeaning(db: Db, limits: Limits, input: RecipeData, partial: bool)
    ensures RunChecks(db, limits, input, partial).ingredients.Ok? <==> Acceptable(db, limits, input, partial, Ingredients)
  {
  }

  lemma NameFieldMeaning(db: Db, limits: Limits, input: RecipeData, partial: bool)
    ensures RunChecks(db, limits, input, partial).name.Ok? <==> Acceptable(db, limits, input, partial, Name)
  {
    if input.name.Some? { NameCheckMeaning(input.name.value); }
  }

  lemma TextCheckMeaning(db: Db, limits: Limits, input: RecipeData, partial: bool)
    ensures RunChecks(db, limits, input, partial).text.Ok? <==> Acceptable(db, limits, input, partial, Text)
  {
  }

  lemma CookingTimeCheckMeaning(db: Db, limits: Limits, input: RecipeData, partial: bool)
    ensures RunChecks(db, limits, input, partial).cookingTime.Ok? <==> Acceptable(db, limits, input, partial, CookingTime)
  {
  }

  /** What the passing checks hand on: present values, with name and text trimmed. */
  lemma ChecksValues(db: Db, limits: Limits, input: RecipeData, partial: bool)
    requires var c := RunChecks(db, limits, input, partial);
      c.tags.Ok? && c.ingredients.Ok? && c.name.Ok? && c.image.Ok? && c.text.Ok? && c.cookingTime.Ok?
    ensures var c := RunChecks(db, limits, input, partial);
      && c.tags.value == input.tags
      && c.ingredients.value == input.ingredients
      && c.image.value == input.image
      && c.cookingTime.value == input.cookingTime
      && (c.name.value.Some? <==> input.name.Some?)
      && (input.name.Some? ==> c.name.value.value == Strip(input.name.value))
      && (c.text.value.Some? <==> input.text.Some?)
      && (input.text.Some? ==> (c.text.value.value.Some? <==> input.text.value.Some?))
      && (input.text.Some? && input.text.value.Some? ==> c.text.value.value.value == Strip(input.text.value.value))
  {
  }

  /**
    `is_valid()`: every field is validated, the errors of all failing fields are
    collected, and the cleaned data is returned only when there are none. With
    `partial` (a PATCH) an omitted field is skipped instead of being required.
   */
  function ValidateRecipe(db: Db, limits: Limits, input: RecipeData, partial: bool): (r: Result<RecipeData, set<Field>>)
    ensures r.Ok? <==> forall f :: Acceptable(db, limits, input, partial, f)
    ensures r.Err? ==> r.error != {} && forall f :: f in r.error <==> !Acceptable(db, limits, input, partial, f)
    ensures r.Ok? ==> && r.value.tags == input.tags
                      && r.value.ingredients == input.ingredients
                      && r.value.image == input.image
                      && r.value.cookingTime == input.cookingTime
    ensures r.Ok? ==> && (r.value.name.Some? <==> input.name.Some?)
                      && (input.name.Some? ==> r.value.name.value == Strip(input.name.value))
                      && (r.value.text.Some? <==> input.text.Some?)
                      && (input.text.Some? ==> (r.value.text.value.Some? <==> input.text.value.Some?))
                      && (input.text.Some? && input.text.value.Some? ==>
                            r.value.text.value.value == Strip(input.text.value.value))
    ensures r.Ok? && !partial ==> Complete(r.value)
  {
    var c := RunChecks(db, limits, input, partial);
    var errors := c.Failing();
    forall f ensures c.Passed(f) <==> Acceptable(db, limits, input, partial, f) {
      ChecksMeaning(db, limits, input, partial, f);
    }
    if errors == {} then
      ChecksValues(db, limits, input, partial);
      Ok(RecipeData(c.tags.value, c.ingredients.value, c.name.value, c.image.value, c.text.value, c.cookingTime.value))
    else
      Err(errors)
  }

  /** Validated data for a create carries every required field. */
  predicate Complete(v: RecipeData)
  {
    v.tags.Some? && v.ingredients.Some? && v.name.Some? && v.image.Some? && v.cookingTime.Some?
  }

  /**
    The serializer declares `cooking_time` itself, so the model field's
    MaxValueValidator(MAX_TIME) is never run on input: a time the model validator
    refuses passes the field as long as it is at least one minute.
   */
  lemma CookingTimeHasNoUpperBound(db: Db, limits: Limits, input: RecipeData, partial: bool)
    requires input.cookingTime.Some? && input.cookingTime.value >= 1
    requires !ValidCookingTime(limits, input.cookingTime.value)
    ensures Acceptable(db, limits, input, partial, CookingTime)
    ensures RunChecks(db, limits, input, partial).cookingTime == Ok(input.cookingTime)
  {
  }

  /**
    The same holds for `amount`: the nested serializer's field has only
    MinValueValidator(1), so an amount the model's MaxValueValidator(MAX_VALUE) refuses
    still passes.
   */
  lemma AmountHasNoUpperBound(limits: Limits, id: int, amount: int)
    requires amount >= 1 && !ValidAmount(limits, amount)
    ensures ValidateIngredients([IngredientInput(id, amount)]) == Ok([IngredientInput(id, amount)])
  {
    assert DistinctIds([IngredientInput(id, amount)]);
  }

  // ---------------------------------------------------------------- create_ingredients

  /** `create_ingredients`: one IngredientRecipe per input entry, in input order. */
  function CreateIngredients(recipe: RecipeId, items: seq<IngredientInput>): (rows: seq<IngredientRecipe>)
    ensures AsInputs(rows) == items
    ensures forall i :: 0 <= i < |rows| ==> rows[i].recipe == recipe
  {
    if |items| == 0 then []
    else
      var p := items[..|items| - 1];
      var x := items[|items| - 1];
      var rows := CreateIngredients(recipe, p) + [IngredientRecipe(recipe, x.id, x.amount)];
      assert rows[..|rows| - 1] == CreateIngredients(recipe, p);
      assert items == p + [x];
      rows
  }

  /** The entries a row list was built from: the inverse of `CreateIngredients`. */
  function AsInputs(rows: seq<IngredientRecipe>): (items: seq<IngredientInput>)
    ensures |items| == |rows|
    ensures forall i :: 0 <= i < |rows| ==> items[i] == IngredientInput(rows[i].ingredient, rows[i].amount)
  {
    if |rows| == 0 then []
    else AsInputs(rows[..|rows| - 1]) + [IngredientInput(rows[|rows| - 1].ingredient, rows[|rows| - 1].amount)]
  }
}

=== FILE: shopping_list.dfy ===
/**
  The two shopping-list aggregations. `download_shopping_cart` groups the ingredient
  rows of the carted recipes by the pair (name, unit) in the database and renders one
  text line per group; `process_shopping_cart_items` folds the rows into a dictionary
  keyed by the rendered label "name (unit)". Both are folds over the same joined rows,
  here a sequence of entries.
 */
module ShoppingList {
  import opened Common
  import opened Text
  import opened UserModels
  import opened RecipeModels
  import opened Store

  /** An IngredientRecipe row joined with its ingredient's name and unit. */
  datatype Entry = Entry(name: string, unit: string, amount: int)

  /** One row of the grouped query: a (name, unit) pair and its summed amount. */
  datatype Line = Line(name: string, unit: string, quantity: int)

  // ---------------------------------------------------------------- the joined rows

  function Join(db: Db, row: IngredientRecipe): Entry
    requires row.ingredient in db.ingredients
  {
    var i := db.ingredients[row.ingredient];
    Entry(i.name, i.measurementUnit, row.amount)
  }

  /** The rows of `rows` whose recipe is in `keep`, joined with their ingredients, in table order. */
  function JoinRows(db: Db, rows: seq<IngredientRecipe>, keep: set<RecipeId>): (es: seq<Entry>)
    requires forall i :: 0 <= i < |rows| ==> rows[i].ingredient in db.ingredients
    ensures |es| <= |rows|
  {
    if |rows| == 0 then []
    else
      var rest := JoinRows(db, rows[..|rows| - 1], keep);
      var row := rows[|rows| - 1];
      if row.recipe in keep then rest + [Join(db, row)] else rest
  }

  /** Every joined entry carries the name and unit of a stored ingredient. */
  lemma {:induction false} JoinedEntryNames(db: Db, rows: seq<IngredientRecipe>, keep: set<RecipeId>, j: int)
    requires forall i :: 0 <= i < |rows| ==> rows[i].ingredient in db.ingredients
    requires 0 <= j < |JoinRows(db, rows, keep)|
    ensures exists g ::
      && g in db.ingredients
      && db.ingredients[g].name == JoinRows(db, rows, keep)[j].name
      && db.ingredients[g].measurementUnit == JoinRows(db, rows, keep)[j].unit
  {
    var p := rows[..|rows| - 1];
    var row := rows[|rows| - 1];
    var rest := JoinRows(db, p, keep);
    if j < |rest| {
      JoinedEntryNames(db, p, keep, j);
      assert JoinRows(db, rows, keep)[j] == rest[j];
    } else {
      assert JoinRows(db, rows, keep)[j] == Join(db, row);
    }
  }

  /** `IngredientRecipe.objects.filter(recipe__in=<the user's cart>)`, joined. */
  function CartEntries(db: Db, user: UserId): seq<Entry>
    requires AmountsNameIngredients(db)
  {
    JoinRows(db, db.ingredientAmounts, CartRecipes(db, user))
  }

  /** `IngredientRecipe.objects.filter(recipe=recipe)`, joined. */
  function RecipeEntries(db: Db, recipe: RecipeId): seq<Entry>
    requires AmountsNameIngredients(db)
  {
    JoinRows(db, db.ingredientAmounts, {recipe})
  }

  /** The rows `process_shopping_cart_items` visits: each item's recipe rows, item by item. */
  function ItemsEntries(db: Db, items: seq<UserRecipe>): seq<Entry>
    requires AmountsNameIngredients(db)
  {
    if |items| == 0 then []
    else ItemsEntries(db, items[..|items| - 1]) + RecipeEntries(db, items[|items| - 1].recipe)
  }

  // ---------------------------------------------------------------- grouping by (name, unit)

  /** Reference sum: the amounts of every entry with this name and unit. */
  function PairTotal(es: seq<Entry>, name: string, unit: string): int
  {
    if |es| == 0 then 0
    else
      var e := es[|es| - 1];
      PairTotal(es[..|es| - 1], name, unit) + (if e.name == name && e.unit == unit then e.amount else 0)
  }

  function EntryPairs(es: seq<Entry>): set<(string, string)>
  {
    set i | 0 <= i < |es| :: (es[i].name, es[i].unit)
  }

  function LinePairs(ls: seq<Line>): set<(string, string)>
  {
    set i | 0 <= i < |ls| :: (ls[i].name, ls[i].unit)
  }

  predicate DistinctPairs(ls: seq<Line>)
  {
    forall i, j :: 0 <= i < j < |ls| ==> ls[i].name != ls[j].name || ls[i].unit != ls[j].unit
  }

  /** The index of the line for (name, unit), or -1. */
  function FindLine(ls: seq<Line>, name: string, unit: string): (k: int)
    ensures -1 <= k < |ls|
    ensures k >= 0 ==> ls[k].name == name && ls[k].unit == unit
    ensures k < 0 ==> forall i :: 0 <= i < |ls| ==> ls[i].name != name || ls[i].unit != unit
  {
    if |ls| == 0 then -1
    else if ls[|ls| - 1].name == name && ls[|ls| - 1].unit == unit then |ls| - 1
    else FindLine(ls[..|ls| - 1], name, unit)
  }

  /**
    `.values('ingredient__name', 'ingredient__measurement_unit').annotate(quantity=Sum('amount'))`:
    one line per distinct (name, unit) pair, carrying the sum of that pair's amounts. The
    database fixes no order; this fold lists the pairs by first occurrence.
   */
  function GroupByPair(es: seq<Entry>): (ls: seq<Line>)
    ensures DistinctPairs(ls)
    ensures LinePairs(ls) == EntryPairs(es)
    ensures forall i :: 0 <= i < |ls| ==> ls[i].quantity == PairTotal(es, ls[i].name, ls[i].unit)
  {
    if |es| == 0 then []
    else
      var p := es[..|es| - 1];
      var e := es[|es| - 1];
      var ls := GroupByPair(p);
      var k := FindLine(ls, e.name, e.unit);
      EntryPairsSnoc(es);
      if k >= 0 then
        var r := ls[k := Line(e.name, e.unit, ls[k].quantity + e.amount)];
        assert LinePairs(r) == LinePairs(ls) by {
          assert forall i :: 0 <= i < |r| ==> (r[i].name, r[i].unit) == (ls[i].name, ls[i].unit);
        }
        r
      else
        var r := ls + [Line(e.name, e.unit, e.amount)];
        LinePairsSnoc(ls, Line(e.name, e.unit, e.amount));
        PairTotalOutside(p, e.name, e.unit);
        r
  }

  lemma EntryPairsSnoc(es: seq<Entry>)
    requires |es| > 0
    ensures EntryPairs(es) == EntryPairs(es[..|es| - 1]) + {(es[|es| - 1].name, es[|es| - 1].unit)}
  {
    var p := es[..|es| - 1];
    assert forall i :: 0 <= i < |p| ==> p[i] == es[i];
  }

  lemma LinePairsSnoc(ls: seq<Line>, l: Line)
    ensures LinePairs(ls + [l]) == LinePairs(ls) + {(l.name, l.unit)}
  {
    var r := ls + [l];
    assert forall i :: 0 <= i < |ls| ==> r[i] == ls[i];
    assert r[|ls|] == l;
  }

  lemma {:induction false} PairTotalOutside(es: seq<Entry>, name: string, unit: string)
    requires (name, unit) !in EntryPairs(es)
    ensures PairTotal(es, name, unit) == 0
  {
    if |es| > 0 {
      EntryPairsSnoc(es);
      PairTotalOutside(es[..|es| - 1], name, unit);
    }
  }

  // ---------------------------------------------------------------- rendering the list

  /** The label both aggregations show: `f'{name} ({unit})'`. */
  function Label(name: string, unit: string): string
  {
    name + " (" + unit + ")"
  }

  /** The header and date lines; `today` is the date already formatted as `%Y-%m-%d`. */
  function Header(today: string): string
  {
    "Список покупок:" + "\n\n" + "Дата: " + today + "\n\n"
  }

  function LineText(l: Line): string
  {
    "- " + Label(l.name, l.unit) + " : " + IntToString(l.quantity) + "\n"
  }

  /** The attachment body: the header, then each line in turn (the loop's `content +=`). */
  function Render(today: string, ls: seq<Line>): (text: string)
    ensures |ls| == 0 ==> text == Header(today)
    ensures |Header(today)| <= |text| && text[..|Header(today)|] == Header(today)
  {
    if |ls| == 0 then Header(today)
    else
      var t := Render(today, ls[..|ls| - 1]);
      assert (t + LineText(ls[|ls| - 1]))[..|Header(today)|] == t[..|Header(today)|];
      t + LineText(ls[|ls| - 1])
  }

  predicate NoNewline(s: string) { forall i :: 0 <= i < |s| ==> s[i] != '\n' }

  lemma LineTextHasOneNewline(l: Line)
    requires NoNewline(l.name) && NoNewline(l.unit)
    ensures Count(LineText(l), '\n') == 1
  {
    var q := IntToString(l.quantity);
    var body := "- " + Label(l.name, l.unit) + " : " + q;
    assert LineText(l) == body + "\n";
    assert NoNewline(body) by {
      assert body == "- " + l.name + " (" + l.unit + ") : " + q;
      forall i | 0 <= i < |body| ensures body[i] != '\n' {
        if i < 2 + |l.name| {
          if i >= 2 { assert body[i] == l.name[i - 2]; }
        } else if i < 4 + |l.name| {
        } else if i < 4 + |l.name| + |l.unit| {
          assert body[i] == l.unit[i - 4 - |l.name|];
        } else if i < 8 + |l.name| + |l.unit| {
        } else {
          assert body[i] == q[i - 8 - |l.name| - |l.unit|];
        }
      }
    }
    CountAbsent(body, '\n');
    CountConcat(body, "\n", '\n');
  }

  lemma HeaderLineCount(today: string)
    requires NoNewline(today)
    ensures Count(Header(today), '\n') == 4
  {
    var title := "Список покупок:";
    var date := "Дата: ";
    TitleHasNoNewline();
    DateLabelHasNoNewline();
    CountAbsent(today, '\n');
    BlankLineCount();
    CountConcat(title, "\n\n", '\n');
    CountConcat(title + "\n\n", date, '\n');
    CountConcat(title + "\n\n" + date, today, '\n');
    CountConcat(title + "\n\n" + date + today, "\n\n", '\n');
  }

  lemma TitleHasNoNewline()
    ensures Count("Список покупок:", '\n') == 0
  {
    var title := "Список покупок:";
    assert forall i :: 0 <= i < |title| ==> title[i] != '\n';
    CountAbsent(title, '\n');
  }

  lemma DateLabelHasNoNewline()
    ensures Count("Дата: ", '\n') == 0
  {
    var date := "Дата: ";
    assert forall i :: 0 <= i < |date| ==> date[i] != '\n';
    CountAbsent(date, '\n');
  }

  lemma BlankLineCount()
    ensures Count("\n\n", '\n') == 2
  {
    assert "\n\n"[1..] == "\n";
    assert "\n"[1..] == "";
  }

  /**
    When no name, unit or date contains a line break, the attachment has exactly one
    line per group after the two header lines (and their blank lines).
   */
  lemma {:induction false} RenderLineCount(today: string, ls: seq<Line>)
    requires NoNewline(today)
    requires forall i :: 0 <= i < |ls| ==> NoNewline(ls[i].name) && NoNewline(ls[i].unit)
    ensures Count(Render(today, ls), '\n') == 4 + |ls|
  {
    if |ls| == 0 {
      HeaderLineCount(today);
    } else {
      RenderLineCount(today, ls[..|ls| - 1]);
      LineTextHasOneNewline(ls[|ls| - 1]);
      CountConcat(Render(today, ls[..|ls| - 1]), LineText(ls[|ls| - 1]), '\n');
    }
  }

  /** Every group's line appears in the attachment, after the header. */
  lemma {:induction false} RenderShowsEveryLine(today: string, ls: seq<Line>, i: int)
    requires 0 <= i < |ls|
    ensures exists k :: |Header(today)| <= k && OccursAt(LineText(ls[i]), Render(today, ls), k)
  {
    var p := ls[..|ls| - 1];
    var t := Render(today, p);
    var h := |Header(today)|;
    assert Render(today, ls) == t + LineText(ls[|ls| - 1]);
    if i == |ls| - 1 {
      OccursAtEnd(t, LineText(ls[i]));
    } else {
      assert ls[i] == p[i];
      RenderShowsEveryLine(today, p, i);
      var k :| h <= k && OccursAt(LineText(ls[i]), t, k);
      OccursInLonger(LineText(ls[i]), t, LineText(ls[|ls| - 1]), k);
    }
  }

  lemma OccursAtEnd(t: string, q: string)
    ensures OccursAt(q, t + q, |t|)
  {
    assert (t + q)[|t|..|t| + |q|] == q;
  }

  lemma OccursInLonger(q: string, t: string, u: string, k: int)
    requires OccursAt(q, t, k)
    ensures OccursAt(q, t + u, k)
  {
    assert (t + u)[k..k + |q|] == t[k..k + |q|];
  }

  // ---------------------------------------------------------------- keying by label

  /** Reference sum: the amounts of every entry whose label is `key`. */
  function LabelTotal(es: seq<Entry>, key: string): int
  {
    if |es| == 0 then 0
    else
      var e := es[|es| - 1];
      LabelTotal(es[..|es| - 1], key) + (if Label(e.name, e.unit) == key then e.amount else 0)
  }

  function Labels(es: seq<Entry>): set<string>
  {
    set i | 0 <= i < |es| :: Label(es[i].name, es[i].unit)
  }

  /** One step of the loop: a missing key is set to the amount, a present one is increased by it. */
  function AddEntry(m: map<string, int>, e: Entry): map<string, int>
  {
    var key := Label(e.name, e.unit);
    if key in m then m[key := m[key] + e.amount] else m[key := e.amount]
  }

  /** The dictionary `buy_list` after visiting `es` in order. */
  function LabelTotals(es: seq<Entry>): map<string, int>
  {
    if |es| == 0 then map[] else AddEntry(LabelTotals(es[..|es| - 1]), es[|es| - 1])
  }

  /** The dictionary has one key per label among the rows, holding that label's total. */
  lemma {:induction false} LabelTotalsMeaning(es: seq<Entry>)
    ensures LabelTotals(es).Keys == Labels(es)
    ensures forall key :: key in LabelTotals(es) ==> LabelTotals(es)[key] == LabelTotal(es, key)
  {
    if |es| > 0 {
      var p := es[..|es| - 1];
      var e := es[|es| - 1];
      LabelTotalsMeaning(p);
      assert Labels(es) == Labels(p) + {Label(e.name, e.unit)} by {
        assert forall i :: 0 <= i < |p| ==> p[i] == es[i];
      }
      forall k | k !in Labels(p) ensures LabelTotal(p, k) == 0 {
        LabelTotalOutside(p, k);
      }
    }
  }

  lemma {:induction false} LabelTotalOutside(es: seq<Entry>, key: string)
    requires key !in Labels(es)
    ensures LabelTotal(es, key) == 0
  {
    if |es| > 0 {
      var p := es[..|es| - 1];
      assert Labels(p) <= Labels(es) by {
        assert forall i :: 0 <= i < |p| ==> p[i] == es[i];
      }
      LabelTotalOutside(p, key);
    }
  }

  lemma {:induction false} LabelTotalConcat(a: seq<Entry>, b: seq<Entry>, key: string)
    ensures LabelTotal(a + b, key) == LabelTotal(a, key) + LabelTotal(b, key)
    decreases |b|
  {
    if |b| == 0 {
      assert a + b == a;
    } else {
      assert (a + b)[..|a + b| - 1] == a + b[..|b| - 1];
      LabelTotalConcat(a, b[..|b| - 1], key);
    }
  }

  /**
    `process_shopping_cart_items`: for each cart item, for each ingredient row of its
    recipe, add the amount under the row's label.
   */
  method ProcessShoppingCartItems(db: Db, items: seq<UserRecipe>) returns (buyList: map<string, int>)
    requires AmountsNameIngredients(db)
    ensures items == [] ==> buyList == map[]
    ensures buyList.Keys == Labels(ItemsEntries(db, items))
    ensures forall key :: key in buyList ==> buyList[key] == LabelTotal(ItemsEntries(db, items), key)
  {
    buyList := map[];
    var i := 0;
    while i < |items|
      invariant 0 <= i <= |items|
      invariant buyList == LabelTotals(ItemsEntries(db, items[..i]))
    {
      buyList := AddRecipeRows(buyList, ItemsEntries(db, items[..i]), RecipeEntries(db, items[i].recipe));
      ItemsEntriesStep(db, items, i);
      i := i + 1;
    }
    assert items[..i] == items;
    LabelTotalsMeaning(ItemsEntries(db, items));
  }

  /** The inner loop: the rows of one recipe, added to the dictionary built from `done`. */
  method AddRecipeRows(m: map<string, int>, done: seq<Entry>, ingredients: seq<Entry>) returns (buyList: map<string, int>)
    requires m == LabelTotals(done)
    ensures buyList == LabelTotals(done + ingredients)
  {
    buyList := m;
    var j := 0;
    assert done + ingredients[..0] == done;
    while j < |ingredients|
      invariant 0 <= j <= |ingredients|
      invariant buyList == LabelTotals(done + ingredients[..j])
    {
      var e := ingredients[j];
      var key := Label(e.name, e.unit);
      PrefixSnoc(done, ingredients, j);
      if key in buyList {
        buyList := buyList[key := buyList[key] + e.amount];
      } else {
        buyList := buyList[key := e.amount];
      }
      j := j + 1;
    }
    assert ingredients[..j] == ingredients;
  }

  lemma PrefixSnoc(done: seq<Entry>, es: seq<Entry>, j: int)
    requires 0 <= j < |es|
    ensures done + es[..j + 1] == (done + es[..j]) + [es[j]]
  {
  }

  lemma ItemsEntriesStep(db: Db, items: seq<UserRecipe>, i: int)
    requires AmountsNameIngredients(db)
    requires 0 <= i < |items|
    ensures ItemsEntries(db, items[..i + 1]) == ItemsEntries(db, items[..i]) + RecipeEntries(db, items[i].recipe)
  {
    assert items[..i + 1][..i] == items[..i];
  }

  /** A cart item listed twice contributes its recipe's amounts twice. */
  lemma RepeatedItemCountsTwice(db: Db, items: seq<UserRecipe>, item: UserRecipe, key: string)
    requires AmountsNameIngredients(db)
    ensures LabelTotal(ItemsEntries(db, items + [item, item]), key)
         == LabelTotal(ItemsEntries(db, items), key) + 2 * LabelTotal(RecipeEntries(db, item.recipe), key)
  {
    var once := items + [item];
    assert (items + [item, item])[..|once|] == once;
    assert once[..|items|] == items;
    var rs := RecipeEntries(db, item.recipe);
    LabelTotalConcat(ItemsEntries(db, items), rs, key);
    LabelTotalConcat(ItemsEntries(db, once), rs, key);
  }

  // ---------------------------------------------------------------- the two aggregations compared

  /**
    Where no two different (name, unit) pairs of the rows share a label, the two
    aggregations agree: each grouped line's label maps to that line's quantity, and the
    dictionary has no other keys.
   */
  lemma AggregationsAgreeWhenLabelsDistinct(es: seq<Entry>)
    requires forall i, j :: 0 <= i < |es| && 0 <= j < |es| && Label(es[i].name, es[i].unit) == Label(es[j].name, es[j].unit)
               ==> es[i].name == es[j].name && es[i].unit == es[j].unit
    ensures var ls := GroupByPair(es); var m := LabelTotals(es);
      && (forall i :: 0 <= i < |ls| ==> Label(ls[i].name, ls[i].unit) in m && m[Label(ls[i].name, ls[i].unit)] == ls[i].quantity)
      && (forall key :: key in m ==> exists i :: 0 <= i < |ls| && Label(ls[i].name, ls[i].unit) == key)
  {
    var ls := GroupByPair(es);
    var m := LabelTotals(es);
    LabelTotalsMeaning(es);
    forall i | 0 <= i < |ls|
      ensures Label(ls[i].name, ls[i].unit) in m && m[Label(ls[i].name, ls[i].unit)] == ls[i].quantity
    {
      assert (ls[i].name, ls[i].unit) in LinePairs(ls);
      var j :| 0 <= j < |es| && (es[j].name, es[j].unit) == (ls[i].name, ls[i].unit);
      assert Label(ls[i].name, ls[i].unit) in Labels(es);
      LabelTotalIsPairTotal(es, ls[i].name, ls[i].unit, j);
    }
    forall key | key in m ensures exists i :: 0 <= i < |ls| && Label(ls[i].name, ls[i].unit) == key {
      var j :| 0 <= j < |es| && Label(es[j].name, es[j].unit) == key;
      assert (es[j].name, es[j].unit) in LinePairs(ls);
      var i :| 0 <= i < |ls| && (ls[i].name, ls[i].unit) == (es[j].name, es[j].unit);
    }
  }

  /** With labels telling pairs apart, summing by label is summing by pair. */
  lemma {:induction false} LabelTotalIsPairTotal(es: seq<Entry>, name: string, unit: string, w: int)
    requires 0 <= w < |es| && es[w].name == name && es[w].unit == unit
    requires forall i, j :: 0 <= i < |es| && 0 <= j < |es| && Label(es[i].name, es[i].unit) == Label(es[j].name, es[j].unit)
               ==> es[i].name == es[j].name && es[i].unit == es[j].unit
    ensures LabelTotal(es, Label(name, unit)) == PairTotal(es, name, unit)
  {
    LabelAgreesOnPrefix(es, name, unit, w, |es|);
    assert es[..|es|] == es;
  }

  lemma {:induction false} LabelAgreesOnPrefix(es: seq<Entry>, name: string, unit: string, w: int, n: nat)
    requires 0 <= w < |es| && es[w].name == name && es[w].unit == unit
    requires n <= |es|
    requires forall i, j :: 0 <= i < |es| && 0 <= j < |es| && Label(es[i].name, es[i].unit) == Label(es[j].name, es[j].unit)
               ==> es[i].name == es[j].name && es[i].unit == es[j].unit
    ensures LabelTotal(es[..n], Label(name, unit)) == PairTotal(es[..n], name, unit)
  {
    if n > 0 {
      LabelAgreesOnPrefix(es, name, unit, w, n - 1);
      assert es[..n][..n - 1] == es[..n - 1];
      var e := es[n - 1];
      assert Label(e.name, e.unit) == Label(name, unit) ==> e.name == name && e.unit == unit by {
        assert Label(es[w].name, es[w].unit) == Label(name, unit);
      }
    }
  }

  /**
    Two different pairs can render the same label: ("a (b", "c") and ("a", "b (c") both
    read "a (b (c)". The grouped query keeps two lines; the dictionary merges them.
   */
  lemma LabelKeyMergesDistinctPairs()
    ensures var es := [Entry("a (b", "c", 1), Entry("a", "b (c", 2)];
      && |GroupByPair(es)| == 2
      && LabelTotals(es) == map["a (b (c)" := 3]
  {
    var e0 := Entry("a (b", "c", 1);
    var e1 := Entry("a", "b (c", 2);
    var es := [e0, e1];
    assert es[..1] == [e0];
    GroupOne(e0);
    var ls := [Line("a (b", "c", 1)];
    assert "a (b" != "a" by { assert |"a (b"| != |"a"|; }
    assert FindLine(ls, "a", "b (c") == -1 by {
      assert ls[..0] == [];
    }
    assert GroupByPair(es) == ls + [Line("a", "b (c", 2)];
    LabelsOfExample(e0, e1);
  }

  lemma GroupOne(e: Entry)
    ensures GroupByPair([e]) == [Line(e.name, e.unit, e.amount)]
  {
    assert [e][..0] == [];
  }

  lemma LabelsOfExample(e0: Entry, e1: Entry)
    requires e0 == Entry("a (b", "c", 1) && e1 == Entry("a", "b (c", 2)
    ensures LabelTotals([e0, e1]) == map["a (b (c)" := 3]
  {
    var key := "a (b (c)";
    assert Label(e0.name, e0.unit) == key;
    assert Label(e1.name, e1.unit) == key;
    assert [e0, e1][..1] == [e0];
    assert [e0][..0] == [];
    assert LabelTotals([e0]) == AddEntry(map[], e0);
    assert LabelTotals([e0]) == map[key := 1];
    assert LabelTotals([e0, e1]) == AddEntry(map[key := 1], e1);
  }
}

=== FILE: store.dfy ===
/**
  The database as one immutable value: every table the backend reads or writes, and
  the constraints the database enforces on them.
 */
module Store {
  import opened Common
  import opened UserModels
  import opened RecipeModels

  /**
    `recipeTags` and `recipeIngredients` are the tables Django creates for the
    ManyToManyFields Recipe.tags and Recipe.ingredients. These fields declare no
    `through` model, so the tables are separate from TagRecipe (`tagRecipes`) and
    IngredientRecipe (`ingredientAmounts`). `intMax` is the largest value the database
    engine stores in an integer column such as a PositiveIntegerField; a larger value
    makes the INSERT or UPDATE that writes it fail.
   */
  datatype Db = Db(
    users: map<UserId, User>,
    ingredients: map<IngredientId, Ingredient>,
    tags: map<TagId, Tag>,
    recipes: map<RecipeId, Recipe>,
    recipeTags: set<(RecipeId, TagId)>,
    recipeIngredients: set<(RecipeId, IngredientId)>,
    ingredientAmounts: seq<IngredientRecipe>,
    tagRecipes: seq<TagRecipe>,
    favorites: seq<UserRecipe>,
    cart: seq<UserRecipe>,
    subscriptions: seq<Subscription>,
    intMax: int)

  /** The bound Django documents as safe for a PositiveIntegerField on every database it supports. */
  const SafeIntegerMax := 2147483647

  /** A PositiveIntegerField column takes `n`: its check `>= 0` and the engine's range. */
  predicate FitsColumn(db: Db, n: int) { 0 <= n <= db.intMax }

  /** Foreign keys of a Favorite or ShoppingCart table. */
  predicate UserRecipeKeys(db: Db, rows: seq<UserRecipe>)
  {
    forall i :: 0 <= i < |rows| ==> rows[i].user in db.users && rows[i].recipe in db.recipes
  }

  /** Foreign keys of IngredientRecipe. */
  predicate AmountKeys(db: Db)
  {
    forall i :: 0 <= i < |db.ingredientAmounts| ==>
      db.ingredientAmounts[i].recipe in db.recipes && db.ingredientAmounts[i].ingredient in db.ingredients
  }

  /** Every IngredientRecipe row names an existing ingredient. */
  predicate AmountsNameIngredients(db: Db)
  {
    forall i :: 0 <= i < |db.ingredientAmounts| ==> db.ingredientAmounts[i].ingredient in db.ingredients
  }

  /** Foreign keys of every table but IngredientRecipe. */
  predicate OtherKeys(db: Db)
  {
    && (forall r :: r in db.recipes ==> db.recipes[r].author in db.users)
    && (forall p :: p in db.recipeTags ==> p.0 in db.recipes && p.1 in db.tags)
    && (forall p :: p in db.recipeIngredients ==> p.0 in db.recipes && p.1 in db.ingredients)
    && (forall i :: 0 <= i < |db.tagRecipes| ==>
          db.tagRecipes[i].recipe in db.recipes && db.tagRecipes[i].tag in db.tags)
    && UserRecipeKeys(db, db.favorites)
    && UserRecipeKeys(db, db.cart)
    && (forall i :: 0 <= i < |db.subscriptions| ==>
          db.subscriptions[i].user in db.users && db.subscriptions[i].author in db.users)
  }

  /** Every constraint the schema declares: unique, check and foreign-key constraints. */
  predicate Valid(db: Db)
  {
    && UsersConstraints(db.users)
    && IngredientsConstraints(db.ingredients)
    && TagsConstraints(db.tags)
    && RecipesConstraints(db.recipes)
    && IngredientRecipeConstraints(db.ingredientAmounts)
    && TagRecipeConstraints(db.tagRecipes)
    && UserRecipeConstraints(db.favorites)
    && UserRecipeConstraints(db.cart)
    && SubscriptionsConstraints(db.subscriptions)
    && AmountKeys(db)
    && OtherKeys(db)
  }

  /** The ids of the recipes `user` has put in the shopping cart. */
  function CartRecipes(db: Db, user: UserId): (r: set<RecipeId>)
    ensures forall id :: id in r <==> UserRecipe(user, id) in db.cart
  {
    set i | 0 <= i < |db.cart| && db.cart[i].user == user :: db.cart[i].recipe
  }

  /** The ids of the recipes `user` has favorited. */
  function FavoriteRecipes(db: Db, user: UserId): (r: set<RecipeId>)
    ensures forall id :: id in r <==> UserRecipe(user, id) in db.favorites
  {
    set i | 0 <= i < |db.favorites| && db.favorites[i].user == user :: db.favorites[i].recipe
  }

  /** The IngredientRecipe rows of one recipe, in table order. */
  function AmountsOf(rows: seq<IngredientRecipe>, recipe: RecipeId): (r: seq<IngredientRecipe>)
    ensures |r| <= |rows|
    ensures forall x :: x in r <==> x in rows && x.recipe == recipe
  {
    if |rows| == 0 then []
    else
      var rest := AmountsOf(rows[..|rows| - 1], recipe);
      var last := rows[|rows| - 1];
      assert rows == rows[..|rows| - 1] + [last];
      if last.recipe == recipe then rest + [last] else rest
  }

  lemma {:induction false} AmountsOfConcat(a: seq<IngredientRecipe>, b: seq<IngredientRecipe>, recipe: RecipeId)
    ensures AmountsOf(a + b, recipe) == AmountsOf(a, recipe) + AmountsOf(b, recipe)
    decreases |b|
  {
    if |b| == 0 {
      assert a + b == a;
    } else {
      assert (a + b)[..|a + b| - 1] == a + b[..|b| - 1];
      AmountsOfConcat(a, b[..|b| - 1], recipe);
    }
  }

  lemma {:induction false} AmountsOfAbsent(rows: seq<IngredientRecipe>, recipe: RecipeId)
    requires forall i :: 0 <= i < |rows| ==> rows[i].recipe != recipe
    ensures AmountsOf(rows, recipe) == []
  {
    if |rows| > 0 {
      AmountsOfAbsent(rows[..|rows| - 1], recipe);
    }
  }

  lemma {:induction false} AmountsOfEmpty(rows: seq<IngredientRecipe>, recipe: RecipeId)
    requires AmountsOf(rows, recipe) == []
    ensures forall x :: x in rows ==> x.recipe != recipe
  {
    if |rows| > 0 {
      var p := rows[..|rows| - 1];
      AmountsOfEmpty(p, recipe);
      assert rows == p + [rows[|rows| - 1]];
    }
  }
}

=== FILE: text.dfy ===
/**
  Character classes and string helpers used by the validators, the filters and the
  shopping-list text. Python's Unicode-aware `\w`, `str.isdigit`, `str.strip` and the
  database's case folding are approximated by their ASCII subsets.
 */
module Text {

  /** ASCII approximation of Python's `str.isdigit` for one character. */
  predicate IsDigit(c: char) { '0' <= c <= '9' }

  predicate IsHexDigit(c: char) { IsDigit(c) || 'a' <= c <= 'f' || 'A' <= c <= 'F' }

  predicate IsAsciiLetter(c: char) { 'a' <= c <= 'z' || 'A' <= c <= 'Z' }

  /** ASCII approximation of the regular-expression class `\w`. */
  predicate IsWordChar(c: char) { IsAsciiLetter(c) || IsDigit(c) || c == '_' }

  /**
    The ASCII characters Python's `str.strip()` removes: space, `\t\n\v\f\r`, and the
    four separators `\x1c`-`\x1f`, which `str.isspace` also counts as whitespace.
   */
  predicate IsSpace(c: char)
  {
    || c == ' ' || c == '\t' || c == '\n' || c == '\r' || c == '\U{000B}' || c == '\U{000C}'
    || '\U{001C}' <= c <= '\U{001F}'
  }

  /** Python's `all(p(c) for c in s)`, evaluated left to right. */
  function All(s: string, p: char -> bool): (b: bool)
    ensures b <==> forall i :: 0 <= i < |s| ==> p(s[i])
  {
    if |s| == 0 then true else p(s[0]) && All(s[1..], p)
  }

  /** Python's `any(p(c) for c in s)`. */
  function Any(s: string, p: char -> bool): (b: bool)
    ensures b <==> exists i :: 0 <= i < |s| && p(s[i])
  {
    if |s| == 0 then false
    else if p(s[0]) then true
    else
      assert forall i :: 1 <= i < |s| ==> s[i] == s[1..][i - 1];
      Any(s[1..], p)
  }

  /**
    Whether `^X$` (with `newlineBeforeEnd`) or `^X\Z` (without) matches `s` under
    Python's `re.search`, given the matcher `body` of the anchored pattern `X`: Python's
    `$` also matches just before a final line feed.
   */
  predicate AnchoredMatch(s: string, body: string -> bool, newlineBeforeEnd: bool)
  {
    body(s) || (newlineBeforeEnd && |s| > 0 && s[|s| - 1] == '\n' && body(s[..|s| - 1]))
  }

  // ---------------------------------------------------------------- case folding

  function LowerChar(c: char): char
  {
    if 'A' <= c <= 'Z' then (c as int + 32) as char else c
  }

  /** ASCII lower-casing, character by character. */
  function Lower(s: string): (r: string)
    ensures |r| == |s|
    ensures forall i :: 0 <= i < |s| ==> r[i] == LowerChar(s[i])
  {
    if |s| == 0 then [] else [LowerChar(s[0])] + Lower(s[1..])
  }

  /** A string without ASCII capitals is its own lower-case form. */
  lemma LowerWithoutCapitals(s: string)
    requires forall i :: 0 <= i < |s| ==> !('A' <= s[i] <= 'Z')
    ensures Lower(s) == s
  {
    var r := Lower(s);
    assert forall i :: 0 <= i < |s| ==> r[i] == s[i];
  }

  // ---------------------------------------------------------------- substrings

  /** `q` occurs in `s` starting at index `k`. */
  predicate OccursAt(q: string, s: string, k: int)
  {
    0 <= k && k + |q| <= |s| && s[k..k + |q|] == q
  }

  /** Substring search by sliding a window over `s`: SQL `LIKE '%q%'`. */
  function Contains(s: string, q: string): (b: bool)
    ensures b <==> exists k :: OccursAt(q, s, k)
    decreases |s|
  {
    if |q| > |s| then
      assert forall k :: !OccursAt(q, s, k);
      false
    else if s[..|q|] == q then
      assert OccursAt(q, s, 0);
      true
    else
      ShiftOccurrence(q, s);
      Contains(s[1..], q)
  }

  /** Occurrences in `s[1..]` are the occurrences in `s` that do not start at 0. */
  lemma ShiftOccurrence(q: string, s: string)
    requires |s| > 0
    requires !OccursAt(q, s, 0)
    ensures (exists k :: OccursAt(q, s, k)) <==> (exists k :: OccursAt(q, s[1..], k))
  {
    if k :| OccursAt(q, s, k) {
      assert k != 0;
      assert s[1..][k - 1..k - 1 + |q|] == s[k..k + |q|];
      assert OccursAt(q, s[1..], k - 1);
    }
    if k :| OccursAt(q, s[1..], k) {
      assert s[1..][k..k + |q|] == s[k + 1..k + 1 + |q|];
      assert OccursAt(q, s, k + 1);
    }
  }

  /** `icontains`: case-insensitive substring match. */
  predicate ContainsIgnoringCase(s: string, q: string)
  {
    Contains(Lower(s), Lower(q))
  }

  // ---------------------------------------------------------------- stripping

  /** Number of whitespace characters at the start of `s`. */
  function LeadingSpaces(s: string): (n: nat)
    ensures n <= |s|
    ensures forall i :: 0 <= i < n ==> IsSpace(s[i])
    ensures n < |s| ==> !IsSpace(s[n])
  {
    if |s| == 0 || !IsSpace(s[0]) then 0 else 1 + LeadingSpaces(s[1..])
  }

  /** Number of whitespace characters at the end of `s`. */
  function TrailingSpaces(s: string): (n: nat)
    ensures n <= |s|
    ensures forall i :: |s| - n <= i < |s| ==> IsSpace(s[i])
    ensures n < |s| ==> !IsSpace(s[|s| - n - 1])
  {
    if |s| == 0 || !IsSpace(s[|s| - 1]) then 0 else 1 + TrailingSpaces(s[..|s| - 1])
  }

  /** Python's `str.strip()`: the slice of `s` left after dropping whitespace at both ends. */
  function Strip(s: string): (r: string)
    ensures |r| == 0 <==> All(s, IsSpace)
    ensures |r| > 0 ==> !IsSpace(r[0]) && !IsSpace(r[|r| - 1])
    ensures exists i :: OccursAt(r, s, i) && StrippedAround(s, i, |r|)
  {
    var i := LeadingSpaces(s);
    var t := s[i..];
    var n := TrailingSpaces(t);
    var r := t[..|t| - n];
    StripFacts(s, i, n);
    assert OccursAt(r, s, i);
    r
  }

  /** Everything outside `s[i..i + n]` is whitespace. */
  predicate StrippedAround(s: string, i: int, n: int)
  {
    0 <= i && 0 <= n && i + n <= |s|
    && (forall k :: 0 <= k < i ==> IsSpace(s[k]))
    && (forall k :: i + n <= k < |s| ==> IsSpace(s[k]))
  }

  lemma StripFacts(s: string, i: nat, n: nat)
    requires i == LeadingSpaces(s)
    requires n == TrailingSpaces(s[i..])
    ensures StrippedAround(s, i, |s| - i - n)
    ensures |s| - i - n == 0 <==> All(s, IsSpace)
  {
    var t := s[i..];
    forall k | i + (|s| - i - n) <= k < |s| ensures IsSpace(s[k]) {
      assert s[k] == t[k - i];
    }
  }

  // ---------------------------------------------------------------- decimal numbers

  function DigitChar(d: nat): (c: char)
    requires d < 10
    ensures IsDigit(c)
  {
    ('0' as int + d) as char
  }

  /** Python's `str(n)` for a non-negative integer. */
  function NatToString(n: nat): (r: string)
    ensures |r| >= 1
    ensures All(r, IsDigit)
    ensures r[0] == '0' ==> n == 0 && |r| == 1
    decreases n
  {
    if n < 10 then [DigitChar(n)] else NatToString(n / 10) + [DigitChar(n % 10)]
  }

  /** Python's `str(n)` for any integer. */
  function IntToString(n: int): (r: string)
    ensures |r| >= 1
    ensures forall i :: 0 <= i < |r| ==> r[i] == '-' || IsDigit(r[i])
  {
    if n < 0 then "-" + NatToString(-n) else NatToString(n)
  }

  /** Reads a string of decimal digits back as a number. */
  function ParseNat(s: string): nat
    requires All(s, IsDigit)
  {
    if |s| == 0 then 0
    else
      assert All(s[..|s| - 1], IsDigit);
      ParseNat(s[..|s| - 1]) * 10 + (s[|s| - 1] as int - '0' as int)
  }

  /** The rendering of a quantity can be read back as the same quantity. */
  lemma {:induction false} ParseNatToString(n: nat)
    ensures ParseNat(NatToString(n)) == n
    decreases n
  {
    if n >= 10 {
      var r := NatToString(n);
      assert r[..|r| - 1] == NatToString(n / 10);
      ParseNatToString(n / 10);
    }
  }

  // ---------------------------------------------------------------- counting

  /** Number of occurrences of `c` in `s`. */
  function Count(s: string, c: char): nat
  {
    if |s| == 0 then 0 else (if s[0] == c then 1 else 0) + Count(s[1..], c)
  }

  lemma {:induction false} CountConcat(a: string, b: string, c: char)
    ensures Count(a + b, c) == Count(a, c) + Count(b, c)
  {
    if |a| > 0 {
      assert (a + b)[1..] == a[1..] + b;
      CountConcat(a[1..], b, c);
    } else {
      assert a + b == b;
    }
  }

  lemma {:induction false} CountAbsent(s: string, c: char)
    requires forall i :: 0 <= i < |s| ==> s[i] != c
    ensures Count(s, c) == 0
  {
    if |s| > 0 {
      CountAbsent(s[1..], c);
    }
  }
}

=== FILE: user_models.dfy ===
/** The account and subscription tables of `user/models.py`. */
module UserModels {
  import opened Common
  import opened Text
  import opened Ordering

  type UserId = int

  /** An account. The password hash is not modelled. */
  datatype User = User(email: string, username: string, firstName: string, lastName: string, isStaff: bool)

  /** A row of Subscription: `user` follows `author`. */
  datatype Subscription = Subscription(user: UserId, author: UserId)

  // ---------------------------------------------------------------- field validators

  /** The character class `[\w.@+-]`. */
  predicate IsUsernameChar(c: char) { IsWordChar(c) || c == '.' || c == '@' || c == '+' || c == '-' }

  predicate UsernameBody(s: string) { |s| > 0 && All(s, IsUsernameChar) }

  /** The username validator `^[\w.@+-]+\Z`. */
  function ValidUsername(s: string): (b: bool)
    ensures b <==> |s| > 0 && forall i :: 0 <= i < |s| ==> IsUsernameChar(s[i])
  {
    AnchoredMatch(s, UsernameBody, false)
  }

  /** Because the pattern ends in `\Z`, a final line feed is never accepted. */
  lemma UsernameRejectsFinalNewline(s: string)
    ensures !ValidUsername(s + "\n")
  {
    assert (s + "\n")[|s|] == '\n';
  }

  // ---------------------------------------------------------------- table constraints

  /** email, username, first_name and last_name are each declared `unique=True`. */
  predicate UsersConstraints(users: map<UserId, User>)
  {
    && UniqueOn(users, (u: User) => u.email)
    && UniqueOn(users, (u: User) => u.username)
    && UniqueOn(users, (u: User) => u.firstName)
    && UniqueOn(users, (u: User) => u.lastName)
  }

  /** `unique_user_author` and the check constraint `users_cannot_rate_themselves`. */
  predicate SubscriptionsConstraints(subscriptions: seq<Subscription>)
  {
    && NoDuplicates(subscriptions)
    && forall i :: 0 <= i < |subscriptions| ==> subscriptions[i].user != subscriptions[i].author
  }

  // ---------------------------------------------------------------- default ordering

  predicate ByUsername(a: User, b: User) { StringLe(a.username, b.username) }

  /** `ordering = ('username',)`: a user listing is the table sorted by username. */
  function OrderedUsers(rows: seq<User>): (r: seq<User>)
    ensures multiset(r) == multiset(rows)
    ensures forall i, j :: 0 <= i < j < |r| ==> StringLe(r[i].username, r[j].username)
  {
    StringKeyIsTotalPreorder(ByUsername, (u: User) => u.username);
    SortBy(rows, ByUsername)
  }
}

=== FILE: views.dfy ===
/**
  The request handlers of `api/views.py` as transitions on the database value. Each
  handler answers with a status; every answer other than a success leaves the
  database exactly as it was. The framework's checks run in its order: authentication
  (401), the allowed methods of the route (405), the object lookup (404), the object
  permission (403), then the handler.
 */
module Views {
  import opened Common
  import opened Text
  import opened UserModels
  import opened RecipeModels
  import opened Store
  import opened Http
  import opened Permissions
  import opened Serializers
  import opened RecipeSaving
  import opened ShoppingList

  /** The signed-in user is a stored account, and its staff flag is the stored one. */
  predicate KnownActor(db: Db, actor: Actor)
  {
    actor.Member? ==> actor.id in db.users && db.users[actor.id].isStaff == actor.isStaff
  }

  // ---------------------------------------------------------------- post_delete

  /**
    `post_delete` on one relation table: POST adds the pair unless present, any other
    method removes it if present. Adding answers 200, not 201.
   */
  function PostDelete(rows: seq<UserRecipe>, m: Method, pair: UserRecipe): (r: (seq<UserRecipe>, Status))
    ensures r.1 == OK || r.1 == BadRequest
    ensures r.1 == BadRequest <==> (m == POST <==> pair in rows)
    ensures r.1 == BadRequest ==> r.0 == rows
    ensures r.1 == OK ==> (pair in r.0 <==> m == POST)
    ensures forall y :: y != pair ==> (y in r.0 <==> y in rows)
    ensures NoDuplicates(rows) ==> NoDuplicates(r.0)
    ensures NoDuplicates(rows) && r.1 == OK ==> |r.0| == if m == POST then |rows| + 1 else |rows| - 1
  {
    var present := pair in rows;
    if m == POST then
      if present then (rows, BadRequest)
      else
        NoDuplicatesSnoc(rows, pair);
        (rows + [pair], OK)
    else if present then (Without(rows, pair), OK)
    else (rows, BadRequest)
  }

  /**
    The checks `favorite` and `shopping_cart` share before `post_delete`: the route
    takes POST and DELETE from signed-in users, and the recipe must exist.
   */
  function RelationRequest(db: Db, rows: seq<UserRecipe>, actor: Actor, m: Method, recipe: RecipeId)
    : (r: (seq<UserRecipe>, Status))
    ensures actor.Anonymous? ==> r == (rows, Unauthorized)
    ensures actor.Member? && m != POST && m != DELETE ==> r == (rows, MethodNotAllowed)
    ensures r.1 != OK ==> r.0 == rows
    ensures r.1 == OK ==> actor.Member? && recipe in db.recipes
    ensures actor.Member? && (m == POST || m == DELETE) && recipe in db.recipes ==>
      r == PostDelete(rows, m, UserRecipe(actor.id, recipe))
  {
    if !actor.IsAuthenticated() then (rows, Unauthorized)
    else if m != POST && m != DELETE then (rows, MethodNotAllowed)
    else if recipe !in db.recipes then (rows, NotFound)
    else PostDelete(rows, m, UserRecipe(actor.id, recipe))
  }

  /** `favorite`: toggles the Favorite table and no other. */
  function Favorite(db: Db, actor: Actor, m: Method, recipe: RecipeId): (r: Outcome)
    ensures r.db == db.(favorites := r.db.favorites)
    ensures r.status != OK ==> r.db == db
  {
    var t := RelationRequest(db, db.favorites, actor, m, recipe);
    Outcome(db.(favorites := t.0), t.1)
  }

  /** `shopping_cart`: toggles the ShoppingCart table and no other. */
  function ShoppingCart(db: Db, actor: Actor, m: Method, recipe: RecipeId): (r: Outcome)
    ensures r.db == db.(cart := r.db.cart)
    ensures r.status != OK ==> r.db == db
  {
    var t := RelationRequest(db, db.cart, actor, m, recipe);
    Outcome(db.(cart := t.0), t.1)
  }

  /** Adding a pair that is absent and then removing it restores the table. */
  lemma PostThenDeleteRestores(rows: seq<UserRecipe>, pair: UserRecipe)
    requires pair !in rows
    ensures var (added, s1) := PostDelete(rows, POST, pair);
      var (removed, s2) := PostDelete(added, DELETE, pair);
      s1 == OK && s2 == OK && removed == rows
  {
    WithoutAppended(rows, pair);
  }

  /** A second identical POST is refused and changes nothing. */
  lemma RepeatedPostConflicts(rows: seq<UserRecipe>, pair: UserRecipe)
    ensures var (added, _) := PostDelete(rows, POST, pair);
      PostDelete(added, POST, pair) == (added, BadRequest)
  {
  }

  /**
    A toggle keeps every schema constraint: the pair it adds references the signed-in
    user and an existing recipe, and is not already present.
   */
  lemma RelationRequestKeepsTable(db: Db, rows: seq<UserRecipe>, actor: Actor, m: Method, recipe: RecipeId)
    requires KnownActor(db, actor)
    requires UserRecipeConstraints(rows) && UserRecipeKeys(db, rows)
    ensures var r := RelationRequest(db, rows, actor, m, recipe);
      UserRecipeConstraints(r.0) && UserRecipeKeys(db, r.0)
  {
    var r := RelationRequest(db, rows, actor, m, recipe);
    forall i | 0 <= i < |r.0| ensures r.0[i].user in db.users && r.0[i].recipe in db.recipes {
      var y := r.0[i];
      assert y in r.0;
      if y in rows {
        var k :| 0 <= k < |rows| && rows[k] == y;
      }
    }
  }

  lemma FavoriteKeepsValid(db: Db, actor: Actor, m: Method, recipe: RecipeId)
    requires Valid(db) && KnownActor(db, actor)
    ensures Valid(Favorite(db, actor, m, recipe).db)
  {
    RelationRequestKeepsTable(db, db.favorites, actor, m, recipe);
  }

  lemma ShoppingCartKeepsValid(db: Db, actor: Actor, m: Method, recipe: RecipeId)
    requires Valid(db) && KnownActor(db, actor)
    ensures Valid(ShoppingCart(db, actor, m, recipe).db)
  {
    RelationRequestKeepsTable(db, db.cart, actor, m, recipe);
  }

  // ---------------------------------------------------------------- subscribe

  /**
    `subscribe`: the author must exist, a user can never follow themself (refused for
    both methods before anything else is looked at), POST adds the pair unless present
    and answers 201, DELETE removes it if present and answers 204.
   */
  function Subscribe(db: Db, actor: Actor, m: Method, author: UserId): (r: Outcome)
    ensures r.db == db.(subscriptions := r.db.subscriptions)
    ensures r.status != Created && r.status != NoContent ==> r.db == db
    ensures actor.Anonymous? ==> r.status == Unauthorized
    ensures actor.Member? && m != POST && m != DELETE ==> r.status == MethodNotAllowed
    ensures actor.Member? && (m == POST || m == DELETE) && author !in db.users ==> r.status == NotFound
    ensures actor.Member? && (m == POST || m == DELETE) && author in db.users && actor.id == author ==>
      r.status == BadRequest
    ensures r.status == Created ==>
      && m == POST && actor.Member? && actor.id != author && author in db.users
      && r.db.subscriptions == db.subscriptions + [Subscription(actor.id, author)]
      && Subscription(actor.id, author) !in db.subscriptions
    ensures r.status == NoContent ==>
      && m == DELETE && actor.Member? && author in db.users
      && Subscription(actor.id, author) in db.subscriptions
      && r.db.subscriptions == Without(db.subscriptions, Subscription(actor.id, author))
    ensures actor.Member? && actor.id != author && author in db.users && m == POST ==>
      (r.status == Created <==> Subscription(actor.id, author) !in db.subscriptions)
    ensures actor.Member? && actor.id != author && author in db.users && m == DELETE ==>
      (r.status == NoContent <==> Subscription(actor.id, author) in db.subscriptions)
  {
    if !actor.IsAuthenticated() then Outcome(db, Unauthorized)
    else if m != POST && m != DELETE then Outcome(db, MethodNotAllowed)
    else if author !in db.users then Outcome(db, NotFound)
    else if actor.Is(author) then Outcome(db, BadRequest)
    else
      var pair := Subscription(actor.id, author);
      var present := pair in db.subscriptions;
      if m == POST then
        if present then Outcome(db, BadRequest)
        else Outcome(db.(subscriptions := db.subscriptions + [pair]), Created)
      else if !present then Outcome(db, BadRequest)
      else Outcome(db.(subscriptions := Without(db.subscriptions, pair)), NoContent)
  }

  /**
    Subscribing keeps every schema constraint, the check `user != author` included:
    the view refuses the self-subscription before the database would.
   */
  lemma SubscribeKeepsValid(db: Db, actor: Actor, m: Method, author: UserId)
    requires Valid(db) && KnownActor(db, actor)
    ensures Valid(Subscribe(db, actor, m, author).db)
  {
    var r := Subscribe(db, actor, m, author);
    var subs := r.db.subscriptions;
    if r.status == Created {
      NoDuplicatesSnoc(db.subscriptions, Subscription(actor.id, author));
    }
    forall i | 0 <= i < |subs|
      ensures subs[i].user != subs[i].author && subs[i].user in db.users && subs[i].author in db.users
    {
      var y := subs[i];
      assert y in subs;
      if y in db.subscriptions {
        var k :| 0 <= k < |db.subscriptions| && db.subscriptions[k] == y;
      }
    }
  }

  /** Following and then unfollowing an author restores the table. */
  lemma SubscribeThenUnsubscribeRestores(db: Db, actor: Actor, author: UserId)
    requires actor.Member? && actor.id != author && author in db.users
    requires Subscription(actor.id, author) !in db.subscriptions
    ensures var r1 := Subscribe(db, actor, POST, author);
      var r2 := Subscribe(r1.db, actor, DELETE, author);
      r1.status == Created && r2.status == NoContent && r2.db == db
  {
    WithoutAppended(db.subscriptions, Subscription(actor.id, author));
  }

  // ---------------------------------------------------------------- download_shopping_cart

  /** The grouped lines of the signed-in user's cart. */
  function CartLines(db: Db, user: UserId): seq<Line>
    requires AmountsNameIngredients(db)
  {
    GroupByPair(CartEntries(db, user))
  }

  /**
    `download_shopping_cart`: for a signed-in GET, the text attachment with the header,
    the date and one line per (name, unit) group of the cart's ingredient rows.
   */
  function DownloadShoppingCart(db: Db, actor: Actor, m: Method, today: string): (r: Result<string, Status>)
    requires AmountsNameIngredients(db)
    ensures actor.Anonymous? ==> r == Err(Unauthorized)
    ensures actor.Member? && m != GET ==> r == Err(MethodNotAllowed)
    ensures r.Ok? <==> actor.Member? && m == GET
    ensures r.Ok? ==> |Header(today)| <= |r.value| && r.value[..|Header(today)|] == Header(today)
    ensures r.Ok? ==> forall i :: 0 <= i < |CartLines(db, actor.id)| ==>
      ShowsLineAfter(r.value, CartLines(db, actor.id)[i], |Header(today)|)
  {
    if !actor.IsAuthenticated() then Err(Unauthorized)
    else if m != GET then Err(MethodNotAllowed)
    else
      var ls := CartLines(db, actor.id);
      var text := Render(today, ls);
      RenderShowsAllLines(today, ls);
      Ok(text)
  }

  /** The line of `l` occurs in `text` at or after position `from`. */
  ghost predicate ShowsLineAfter(text: string, l: Line, from: int)
  {
    exists k :: from <= k && OccursAt(LineText(l), text, k)
  }

  lemma RenderShowsAllLines(today: string, ls: seq<Line>)
    ensures forall i :: 0 <= i < |ls| ==> ShowsLineAfter(Render(today, ls), ls[i], |Header(today)|)
  {
    forall i | 0 <= i < |ls| ensures ShowsLineAfter(Render(today, ls), ls[i], |Header(today)|) {
      RenderShowsEveryLine(today, ls, i);
    }
  }

  /**
    The attachment's lines: one per distinct (name, unit) among the ingredient rows of
    the carted recipes, each carrying that pair's total, after the four header lines.
   */
  lemma ShoppingListContents(db: Db, user: UserId, today: string)
    requires AmountsNameIngredients(db)
    ensures var es := CartEntries(db, user); var ls := CartLines(db, user);
      && DistinctPairs(ls)
      && LinePairs(ls) == EntryPairs(es)
      && (forall i :: 0 <= i < |ls| ==> ls[i].quantity == PairTotal(es, ls[i].name, ls[i].unit))
    ensures NoNewline(today)
         && (forall i :: i in db.ingredients ==> NoNewline(db.ingredients[i].name) && NoNewline(db.ingredients[i].measurementUnit))
      ==> Count(Render(today, CartLines(db, user)), '\n') == 4 + |CartLines(db, user)|
  {
    var es := CartEntries(db, user);
    var ls := CartLines(db, user);
    if NoNewline(today)
       && (forall i :: i in db.ingredients ==> NoNewline(db.ingredients[i].name) && NoNewline(db.ingredients[i].measurementUnit))
    {
      forall i | 0 <= i < |ls| ensures NoNewline(ls[i].name) && NoNewline(ls[i].unit) {
        assert (ls[i].name, ls[i].unit) in LinePairs(ls);
        var j :| 0 <= j < |es| && (es[j].name, es[j].unit) == (ls[i].name, ls[i].unit);
        JoinedEntryNames(db, db.ingredientAmounts, CartRecipes(db, user), j);
      }
      RenderLineCount(today, ls);
    }
  }

  // ---------------------------------------------------------------- create and partial update

  /**
    POST to the recipe list: the view-level permission lets only signed-in users write,
    the serializer validates every field, and `create` saves the recipe as its
    requester's. Nothing changes on a 401 or a 400.
   */
  function CreateRecipeRequest(db: Db, limits: Limits, actor: Actor, input: RecipeData, id: RecipeId, pubDate: int)
    : (r: Outcome)
    requires id !in db.recipes
    ensures r.status in {Unauthorized, BadRequest} ==> r.db == db
    ensures r.status == Unauthorized <==> actor.Anonymous?
    ensures actor.Member? ==> (r.status == BadRequest <==> exists f :: !Acceptable(db, limits, input, false, f))
    ensures r.status == Created ==> id in r.db.recipes && actor.Member? && r.db.recipes[id].author == actor.id
    ensures Valid(db) && actor.Member? && input.ingredients.Some? && (forall f :: Acceptable(db, limits, input, false, f)) ==>
      (r.status == Created <==> ColumnsFit(db, input) && ItemsStorable(db, input.ingredients.value))
  {
    if !AuthorOrAdminOrReadOnlyView(POST, actor) then Outcome(db, Unauthorized)
    else
      match ValidateRecipe(db, limits, input, false)
      case Err(_) => Outcome(db, BadRequest)
      case Ok(v) =>
        AcceptedCreateSucceedsIff(db, limits, actor.id, input, id, pubDate);
        CreateRecipe(db, actor.id, id, v, pubDate)
  }

  /**
    On a consistent database an accepted body is saved exactly when its cooking time
    fits its column and its ingredient ids all exist with amounts that fit theirs.
   */
  lemma AcceptedCreateSucceedsIff(db: Db, limits: Limits, author: UserId, input: RecipeData, id: RecipeId, pubDate: int)
    requires id !in db.recipes
    requires ValidateRecipe(db, limits, input, false).Ok?
    ensures var v := ValidateRecipe(db, limits, input, false).value;
      Valid(db) ==>
        (CreateRecipe(db, author, id, v, pubDate).status == Created <==> ColumnsFit(db, input) && ItemsStorable(db, input.ingredients.value))
  {
    if Valid(db) {
      var v := ValidateRecipe(db, limits, input, false).value;
      AcceptedIngredients(db, limits, input, false);
      CreateRecipeSucceedsIff(db, author, id, v, pubDate);
    }
  }

  /**
    What a PATCH passes before `update` runs: the view permission (401), the lookup
    (404), the object permission (403), then the serializer (400). It yields the
    validated data.
   */
  function PatchChecks(db: Db, limits: Limits, actor: Actor, id: RecipeId, input: RecipeData): (r: Result<RecipeData, Status>)
    ensures r.Err? ==> r.error in {Unauthorized, NotFound, Forbidden, BadRequest}
    ensures actor.Anonymous? ==> r == Err(Unauthorized)
    ensures actor.Member? && id !in db.recipes ==> r == Err(NotFound)
    ensures actor.Member? && id in db.recipes && actor.id != db.recipes[id].author && !actor.isStaff ==> r == Err(Forbidden)
    ensures r.Ok? <==>
      && actor.Member? && id in db.recipes && (actor.id == db.recipes[id].author || actor.isStaff)
      && forall f :: Acceptable(db, limits, input, true, f)
    ensures r.Ok? ==> ValidateRecipe(db, limits, input, true) == Ok(r.value)
  {
    if !AuthorOrAdminOrReadOnlyView(PATCH, actor) then Err(Unauthorized)
    else if id !in db.recipes then Err(NotFound)
    else if !AuthorOrAdminOrReadOnlyObject(PATCH, actor, db.recipes[id].author) then Err(Forbidden)
    else
      match ValidateRecipe(db, limits, input, true)
      case Err(_) => Err(BadRequest)
      case Ok(v) => Ok(v)
  }

  /**
    PATCH of one recipe as the program does it: signed-in users only, the recipe must
    exist, only its author or staff may change it, omitted fields are left alone, and
    `update` as written saves the rest. Supplied ingredients are added to the recipe's
    rows, so an id the recipe already has ends in a server error.
   */
  function PartialUpdateRequest(db: Db, limits: Limits, actor: Actor, id: RecipeId, input: RecipeData): (r: Outcome)
    ensures r.status in {Unauthorized, NotFound, Forbidden, BadRequest} ==> r.db == db
    ensures actor.Anonymous? ==> r.status == Unauthorized
    ensures actor.Member? && id !in db.recipes ==> r.status == NotFound
    ensures r.status in {OK, ServerError} ==>
      && actor.Member? && id in db.recipes && (actor.id == db.recipes[id].author || actor.isStaff)
      && forall f :: Acceptable(db, limits, input, true, f)
    ensures actor.Member? && id in db.recipes && actor.id != db.recipes[id].author && !actor.isStaff ==>
      r.status == Forbidden
    ensures r.status == OK && input.ingredients.Some? ==>
      AmountsOf(r.db.ingredientAmounts, id) == AmountsOf(db.ingredientAmounts, id) + CreateIngredients(id, input.ingredients.value)
    ensures r.status == OK && input.ingredients.None? ==> r.db.ingredientAmounts == db.ingredientAmounts
    ensures r.status == OK && input.tags.None? ==> r.db.recipeTags == db.recipeTags
    ensures Valid(db) && r.status in {OK, ServerError} ==>
      (r.status == OK <==> AsWrittenUpdateFits(db, id, input))
  {
    match PatchChecks(db, limits, actor, id, input)
    case Err(s) => Outcome(db, s)
    case Ok(v) =>
      AcceptedUpdateAsWrittenIff(db, limits, id, input);
      UpdateRecipeAsWritten(db, id, v)
  }

  /**
    When the update as written succeeds: supplied ingredients exist, fit their column and
    are new to the recipe, and a supplied cooking time fits its column.
   */
  predicate AsWrittenUpdateFits(db: Db, id: RecipeId, input: RecipeData)
  {
    && (input.ingredients.Some? ==>
          ItemsStorable(db, input.ingredients.value) && NoOldRowFor(db, id, input.ingredients.value))
    && ColumnsFit(db, input)
  }

  lemma AcceptedUpdateAsWrittenIff(db: Db, limits: Limits, id: RecipeId, input: RecipeData)
    requires id in db.recipes
    requires ValidateRecipe(db, limits, input, true).Ok?
    ensures var v := ValidateRecipe(db, limits, input, true).value;
      Valid(db) ==> (UpdateRecipeAsWritten(db, id, v).status == OK <==> AsWrittenUpdateFits(db, id, input))
  {
    if Valid(db) {
      AcceptedIngredients(db, limits, input, true);
      if input.ingredients.Some? {
        AddedRowsInsertable(db, id, input.ingredients.value);
      }
    }
  }

  /**
    The same PATCH with the corrected ingredient step: supplied ingredients replace the
    recipe's rows exactly.
   */
  function CorrectedPartialUpdateRequest(db: Db, limits: Limits, actor: Actor, id: RecipeId, input: RecipeData): (r: Outcome)
    ensures r.status in {Unauthorized, NotFound, Forbidden, BadRequest} ==> r.db == db
    ensures PatchChecks(db, limits, actor, id, input).Err? ==> r.status == PatchChecks(db, limits, actor, id, input).error
    ensures r.status in {OK, ServerError} ==> PatchChecks(db, limits, actor, id, input).Ok?
    ensures r.status == OK && input.ingredients.Some? ==>
      AmountsOf(r.db.ingredientAmounts, id) == CreateIngredients(id, input.ingredients.value)
    ensures r.status == OK && input.ingredients.None? ==> r.db.ingredientAmounts == db.ingredientAmounts
    ensures r.status == OK && input.tags.None? ==> r.db.recipeTags == db.recipeTags
    ensures Valid(db) && r.status in {OK, ServerError} ==>
      (r.status == OK <==> (input.ingredients.Some? ==> ItemsStorable(db, input.ingredients.value)) && ColumnsFit(db, input))
  {
    match PatchChecks(db, limits, actor, id, input)
    case Err(s) => Outcome(db, s)
    case Ok(v) =>
      AcceptedIngredients(db, limits, input, true);
      UpdateRecipe(db, id, v)
  }

  /** A recipe request, whether it is answered 201, 200, 4xx or 500, keeps every schema constraint. */
  lemma CreateRecipeRequestKeepsValid(db: Db, limits: Limits, actor: Actor, input: RecipeData, id: RecipeId, pubDate: int)
    requires id !in db.recipes && Valid(db) && KnownActor(db, actor)
    ensures Valid(CreateRecipeRequest(db, limits, actor, input, id, pubDate).db)
  {
    if actor.Member? {
      var r := ValidateRecipe(db, limits, input, false);
      if r.Ok? {
        AcceptedFieldsFit(db, limits, input, false);
        CreateRecipeKeepsValid(db, actor.id, id, r.value, pubDate);
        assert CreateRecipeRequest(db, limits, actor, input, id, pubDate) == CreateRecipe(db, actor.id, id, r.value, pubDate);
      }
    }
  }

  lemma PartialUpdateRequestKeepsValid(db: Db, limits: Limits, actor: Actor, id: RecipeId, input: RecipeData)
    requires Valid(db)
    ensures Valid(PartialUpdateRequest(db, limits, actor, id, input).db)
  {
    var c := PatchChecks(db, limits, actor, id, input);
    if c.Ok? {
      AcceptedFieldsFit(db, limits, input, true);
      UpdateRecipeAsWrittenKeepsValid(db, id, c.value);
      assert PartialUpdateRequest(db, limits, actor, id, input) == UpdateRecipeAsWritten(db, id, c.value);
    }
  }

  lemma CorrectedPartialUpdateRequestKeepsValid(db: Db, limits: Limits, actor: Actor, id: RecipeId, input: RecipeData)
    requires Valid(db)
    ensures Valid(CorrectedPartialUpdateRequest(db, limits, actor, id, input).db)
  {
    var c := PatchChecks(db, limits, actor, id, input);
    if c.Ok? {
      AcceptedFieldsFit(db, limits, input, true);
      UpdateRecipeKeepsValid(db, id, c.value);
      assert CorrectedPartialUpdateRequest(db, limits, actor, id, input) == UpdateRecipe(db, id, c.value);
    }
  }

  /** An accepted body's ingredient list, when present, is validated: distinct ids, positive amounts. */
  lemma AcceptedIngredients(db: Db, limits: Limits, input: RecipeData, partial: bool)
    requires ValidateRecipe(db, limits, input, partial).Ok?
    ensures var v := ValidateRecipe(db, limits, input, partial).value;
      v.ingredients.Some? ==> DistinctIds(v.ingredients.value) && AmountsPositive(v.ingredients.value)
  {
    assert Acceptable(db, limits, input, partial, Ingredients);
  }

  /** What an accepted body guarantees the schema: its tags exist and its cooking time is positive. */
  lemma AcceptedFieldsFit(db: Db, limits: Limits, input: RecipeData, partial: bool)
    requires ValidateRecipe(db, limits, input, partial).Ok?
    ensures var v := ValidateRecipe(db, limits, input, partial).value;
      TagsExist(db, v.tags) && (v.cookingTime.Some? ==> v.cookingTime.value >= 1)
  {
    assert Acceptable(db, limits, input, partial, Tags);
    assert Acceptable(db, limits, input, partial, CookingTime);
  }
}
